=== FILE: README.md ===
# CopyDatabase table synchronisation — a Dafny model

This project models the per-table synchronisation engine of CopyDatabase
(`CopyDatabase/TableSync.cs`). The engine copies one table from a source SQL
Server store to a target store. It probes the table's metadata and generates
the insert and update statements from it. A table with the versioning columns
`Key`, `EffectiveDateUtc` and `LastUpdateUtc` is copied by the diff merge
(`SmartCopyAsync`), and any other table by the full scan (`BruteForceCopyAsync`).

All SQL I/O is replaced by plain inputs:
- the catalog answers: primary-key names, identity names, and the sample query's columns and types;
- the ordered source rows and keys;
- the triples each side holds;
- how many rows a re-fetch returns;
- the outcome of every write: an affected-row count or an error message.

`DateTime.UtcNow` is a clock reading in ticks of 100 ns, one per diff window
(the `now` field of each window's store).

Modules, one per part of the engine:
- `Metadata` (metadata.dfy): the probe, the statement column lists and the statement text.
- `Binding` (binding.dfy): parameter binding.
- `Paging` (paging.dfy): pages and key windows.
- `Diff` (diff.dfy): the three-way classification of one window.
- `Apply` (apply.dfy): the ordered writes of a window and their counters.
- `FullScan` (fullscan.dfy): the paged per-row upsert.
- `TableSync` (tablesync.dfy): mode selection and the window loop.
- Helpers: `Wrappers`, `Text` and `Lists`.

Notes on what the code does:
- A failed delete in the diff merge is not counted as an error. The delete has no `try`, so its exception ends the table's copy (TableSync.cs:307-320).
- The update SET list excludes only `Key` and `EffectiveDateUtc`, in any letter case. Identity and primary-key columns stay in it (TableSync.cs:100-106).
- The key WHERE list follows the sample's column order, not primary-key order (TableSync.cs:115-121).
- The diff merge is chosen by column names alone (TableSync.cs:396), but it reads `Key` with `GetString` and the timestamps with `GetDateTime` (TableSync.cs:240-242, 260-262, 279-281). A versioned table whose `Key` is not a string type, or whose timestamps are not date types, fails at the first row read.

## Model

| member | source | states |
|---|---|---|
| Metadata.Probe | CopyDatabase/TableSync.cs:35-122 | fails with NoPrimaryKey exactly when the key list is empty, before anything else; fails on a repeated column name; otherwise the type map holds exactly the sample's columns; templates exist iff the sample returned a row; the WHERE is the versioned form iff all three special columns are map keys; the template's insert, SET and key-WHERE lists are `InsertColumns`, `SetColumns` and `WhereColumns` of the sample's column names |
| Metadata.ColumnTypes | CopyDatabase/TableSync.cs:64-76 | succeeds iff column names are distinct; then maps each column name to its data-type name and nothing else |
| Metadata.InsertColumns | CopyDatabase/TableSync.cs:81-95 | the insert list holds exactly the sample columns not in the identity list, each as often as in the sample, as an order-preserving subsequence |
| Metadata.SetColumns | CopyDatabase/TableSync.cs:100-106 | the SET list holds every sample column except `Key`/`EffectiveDateUtc` in any letter case (identity and key columns included), in sample order |
| Metadata.WhereColumns | CopyDatabase/TableSync.cs:115-121 | the key WHERE lists exactly the sample columns that are primary keys, in sample order |
| Metadata.BuildTemplate | CopyDatabase/TableSync.cs:80-122 | the insert list holds exactly the non-identity columns and the SET list exactly the columns other than `Key`/`EffectiveDateUtc`, both in sample order; the WHERE is the versioned form iff the table is versioned, and otherwise lists exactly the primary-key columns, in sample order |
| Metadata.InsertTextShape | CopyDatabase/TableSync.cs:80-96 | the insert text is `insert into [s].[t] (` + comma-joined `[c]` + `) values (` + comma-joined `@c`; the two lists have equal length and are index-aligned |
| Metadata.UpdateTextShape | CopyDatabase/TableSync.cs:99-122 | the update text is `update [s].[t] set ` + comma-joined `[c]=@c` over the SET list + the WHERE text |
| Binding.AddParameters | CopyDatabase/TableSync.cs:423-446 | one parameter per field, in order, named `@field`; fails iff a field has no type-map entry |
| Binding.KindFor | CopyDatabase/TableSync.cs:429-444 | `@Key` takes the size-255 binding with a value-inferred type (the `DbType` argument selects the `(name, object)` constructor, whose value the initializer overwrites) before any type test; otherwise `datetime2` and `bigint` (ignoring case) bind as DateTime2 and BigInt, and anything else is inferred |
| Binding.KeyBindingIsExact | CopyDatabase/TableSync.cs:428-432 | a column takes the size-255, value-inferred binding iff its name is exactly `Key`, whatever its data type |
| Binding.TypeMatchIgnoresCase | CopyDatabase/TableSync.cs:433-444 | `DATETIME2` and `BigInt` are recognised; `Key` of type datetime2 takes the size-255 inferred binding, not DateTime2; other types are inferred |
| Paging.Page | CopyDatabase/TableSync.cs:145 | a page is empty iff its offset reaches the end; otherwise it holds the rows from that offset onward, at most one page's worth |
| Paging.WindowBounds | CopyDatabase/TableSync.cs:222-243 | an empty key page yields no window; otherwise minKey is the first key read and maxKey the last |
| Paging.WindowsFromPages | CopyDatabase/TableSync.cs:215-249 | window `i` comes from key page `start + step*i`, and exists iff that page is non-empty |
| Paging.WindowIndex | CopyDatabase/TableSync.cs:227-243 | with the page counter advancing by `step` per iteration, window `i` exists iff key page `step*i` is non-empty, and is that page's bounds |
| Paging.WindowsCoverEveryKey | CopyDatabase/TableSync.cs:227-243 | with consecutive pages, every key of a sorted key list lies in some window |
| Paging.AsWrittenWindowIndex | CopyDatabase/TableSync.cs:227-249 | as written, window `i` is the bounds of key page `2*i` |
| Paging.AsWrittenSkipsKey | CopyDatabase/TableSync.cs:227-249 | as written, sorted keys a, b, c with one key per page give windows [a,a] and [c,c], and b is in neither |
| Paging.AsWrittenMissesSecondPage | CopyDatabase/TableSync.cs:227-249 | as written, for any page size, the first key of page 1 of a strictly sorted list with more than one page is in no window |
| Diff.FindComposite | CopyDatabase/TableSync.cs:284-286 | finds a row with the composite key iff one exists |
| Diff.LoadSource | CopyDatabase/TableSync.cs:254-265 | fails iff the source repeats a composite key; otherwise one insert-tagged action per source triple, in read order |
| Diff.AddTargetRow | CopyDatabase/TableSync.cs:278-299 | fails iff the row's composite key was already read; otherwise only the source action with that key changes, and the target action is a delete iff the source lacks the key |
| Diff.Classify | CopyDatabase/TableSync.cs:256-301 | fails iff either side repeats a composite key (source first); otherwise each source action equals the reference `ExpectedSource` and each target action equals `ExpectedTarget`, in read order |
| Diff.SourceActionFacts | CopyDatabase/TableSync.cs:258-295 | a source action is never a delete; it is an insert iff unmatched; it is an update iff matched with LastUpdate older than now−30min and newer than the target's by more than 2min; it is never both |
| Diff.TargetActionFacts | CopyDatabase/TableSync.cs:278-299 | a target action is never an insert or an update; it is a delete iff the source has no row with its composite key |
| Diff.ResyncIsQuiet | CopyDatabase/TableSync.cs:284-299 | re-diffing a window whose target holds exactly the source's triples yields no insert, update or delete |
| Diff.Scenarios | CopyDatabase/TableSync.cs:284-299 | worked cases: unmatched is an insert; 40-min-old and 10-min-newer is an update; 20-min-old or 1-min-newer is inert; target-only is a delete |
| Apply.DeletePlan | CopyDatabase/TableSync.cs:303-306 | exactly one delete per delete-tagged target action, in dictionary order, and no other writes |
| Apply.UpsertPlan | CopyDatabase/TableSync.cs:323-389 | as many writes as insert/update-tagged source actions' re-fetched rows; inserts come from insert-tagged actions, updates from update-tagged ones that are not inserts; no deletes; every tagged action's statement (insert when insert-tagged) occurs at least once per re-fetched row |
| Apply.UpsertPlanCounts | CopyDatabase/TableSync.cs:323-389 | with distinct composite keys, each tagged action's statement occurs exactly once per re-fetched row |
| Apply.Plan | CopyDatabase/TableSync.cs:303-389 | every delete precedes every insert or update |
| Apply.PlanDeletes | CopyDatabase/TableSync.cs:303-322 | the plan's deletes are exactly the delete-tagged target actions |
| Apply.InertCausesNoWrite | CopyDatabase/TableSync.cs:330 | a source action tagged neither insert nor update causes no write |
| Apply.Run | CopyDatabase/TableSync.cs:303-389 | aborts iff some delete fails; otherwise `errors` grows by exactly the number of failed inserts and updates, and `deletes`, `inserts` and `updates` each grow by the affected counts of that kind's successful writes |
| Apply.UpsertTotals | CopyDatabase/TableSync.cs:323-389 | the plan's insert and update totals and failures equal the action-by-action sums: each tagged action contributes its re-fetch count times its statement's affected count, or its re-fetch count in errors when the statement fails |
| Apply.DeleteTotals | CopyDatabase/TableSync.cs:303-320 | the plan's delete total equals the sum of the affected counts of the delete-tagged actions' deletes |
| Apply.ApplyWindow | CopyDatabase/TableSync.cs:303-389 | `rows` grows by exactly the number of source actions; `errors`, `deletes`, `inserts` and `updates` grow by the action-by-action sums; at most one error per insert/update; the window aborts iff a delete of a delete-tagged action fails |
| FullScan.Upsert | CopyDatabase/TableSync.cs:152-200 | an insert is always attempted; an update only after a "Cannot insert duplicate key" failure; `errors` grows by one iff the row fails, and the counts add the affected rows |
| FullScan.ScanCounts | CopyDatabase/TableSync.cs:131-206 | over a scan, rows = number of source rows; errors = failing rows ≤ rows; one insert attempt per row plus one update per duplicate; no deletes |
| FullScan.TwoFreshRows | CopyDatabase/TableSync.cs:152-173 | two fresh rows copy as 2 rows, 2 inserts, 0 updates, 0 errors |
| FullScan.FullScanCopy | CopyDatabase/TableSync.cs:135-205 | paging 0, 1, 2, … until an empty page visits every source row exactly once, in order, and yields the whole-table upsert counters |
| TableSync.InRange | CopyDatabase/TableSync.cs:251-273 | a window's triples are exactly those whose key lies in [minKey, maxKey], kept in store order (a subsequence of the store) |
| TableSync.InRangeCounts | CopyDatabase/TableSync.cs:251-273 | each triple occurs in the window as often as in the store when its key is in range, and not at all otherwise |
| TableSync.WindowApplies | CopyDatabase/TableSync.cs:278-389 | applying the reference classification of a window completes iff the window succeeds, and adds the window's delta (source triples, affected counts per kind, failures) to the counters |
| TableSync.MergeWindow | CopyDatabase/TableSync.cs:246-389 | a window completes iff its triples can be read (both timestamps of a date type, or no row on either side) and neither side repeats a composite key and every issued delete succeeds; an unreadable timestamp fails with a read failure; on success every counter grows by that window's delta |
| TableSync.ReadWindow | CopyDatabase/TableSync.cs:224-243 | the key query of iteration `i` yields window `i` of the loop, or nothing once the key pages run out; it fails with a read failure on `Key` iff the page has a key and `Key` is not declared as a string type |
| TableSync.SmartCopy | CopyDatabase/TableSync.cs:208-392 | for a page-counter step of 1 (consecutive pages) or 2 (the loop as written): the merge succeeds iff every window completes (key and triples readable, no repeated composite key, every delete succeeds); then the counters are the sum of the windows' deltas |
| TableSync.CopyTable | CopyDatabase/TableSync.cs:393-404 | no primary key fails with NoPrimaryKey before any copy; otherwise the merge runs iff `Key`, `EffectiveDateUtc` and `LastUpdateUtc` are all columns (exact names), and the full scan runs otherwise; the merge reads key pages 0, 2, 4, … as `SmartCopyAsync` does, is Merged iff every such window completes under the sample's declared types and fails otherwise, and the counters are those windows' totals or the whole-table scan's |

## Findings

| source | as written | input that shows it | evidently intended | confidence | as-written member | corrected member |
|---|---|---|---|---|---|---|
| CopyDatabase/TableSync.cs:249 | `SmartCopyAsync` increments `page` again before the triple query, so the key pages read are 0, 2, 4, … | sorted keys `a`, `b`, `c` with one key per page: windows are [a,a] and [c,c], so `b` is never inserted, updated or deleted (`Paging.AsWrittenSkipsKey`; `Paging.AsWrittenMissesSecondPage` for any page size) | one increment per iteration, so key pages 0, 1, 2, … and every key is diffed | high; not executed | Paging.WindowsAsWritten | Paging.Windows |

`TableSync.SmartCopy` takes the page-counter step as a parameter, so it models
both the loop as written (step 2, windows `Paging.WindowsAsWritten`) and the
corrected loop (step 1, windows `Paging.Windows`). `TableSync.CopyTable` runs
the loop as written, as `CopyTableAsync` does. `Paging.WindowsCoverEveryKey` proves that every key of a
sorted key list lies in one of its windows.

## Left out

- SQL execution, connections and the catalog queries (TableSync.cs:37, 52, 66): their results are inputs.
- `DateTime.UtcNow`: one clock reading per window, in ticks. The code reads the clock again for each matched target row (TableSync.cs:288). So a row that settles part-way through a slow window is updated by the code but not by the model.
- Console logging, the `Stopwatch`, the every-1000-rows progress line and `GetSqlKeys`: diagnostics only.
- The `Task.Delay` throttle before each merge write: timing only.
- The SQL meaning of `SourceFilter` and of schema and table names: the source triples and keys are given already filtered; the target read is unfiltered, as in the code.
- The `orderByColumns` text: it only feeds SQL `ORDER BY`, so its effect is the given order of the source rows and keys.
- `CopyDatabase/DbSync.cs`: table enumeration and the concurrent worker pool. `CopyDatabase/Program.cs` and `CopyDatabase/AppSettings.cs`: startup and configuration.
- Row values: parameters carry a name and a binding kind only. The written values are never compared.
- Concurrent change: the source keys and rows are a static snapshot. Each window sees its own snapshot of both stores, given as an input. That input also stands in for the copy's own writes in earlier windows. A `Key` whose rows span two key pages falls in both windows, because the triple query takes every row with a key in [minKey, maxKey]. The second window then sees the first window's inserts in the target, and the model does not derive that target from the first window's writes. The per-window source triples are not tied to the key list either, so `Paging.WindowsCoverEveryKey` promises that every key is covered, not that every source triple is.
- Paging.KeyLe: the store's collation is approximated by ordinal lexicographic order on characters.
- Text.EqualsIgnoreCase: invariant-culture case folding is modelled for ASCII letters only.
- Diff.UpdateEligible: `DateTime` range errors (`AddMinutes(-30)` near `DateTime.MinValue`) are not modelled.
- TableSync.StringTyped: the types the typed getters accept are those of SqlClient's mapping of declared type names: `GetString` reads char, nchar, varchar, nvarchar, text and ntext; `GetDateTime` reads date, datetime, datetime2 and smalldatetime. Type names are compared exactly as the sample's schema reports them. An alias type is assumed to report its base type. A `sql_variant` column is treated as unreadable, though it reads when it holds a value of a readable type.
- Diff.Classify: NULL values in the triple columns are not modelled. In the code, `GetString` throws on a NULL key in the key and triple reads (TableSync.cs:240-242, 260, 279), and `GetDateTime` throws on a NULL `EffectiveDateUtc` or `LastUpdateUtc` (TableSync.cs:261-262, 280-281). Either ends the table's copy. The model's timestamps are integer ticks, which cannot be NULL.
- Apply.ApplyWindow: a write's outcome is a function of the statement. Several rows re-fetched for one composite key all get the same outcome.
- FullScan.FullScanCopy: empty sample, rows inserted later. The insert and update texts stay unset, so every write throws. The model gets those failures only as given outcomes.
- Counters: `rows`, `inserts`, `updates`, `deletes`, `errors` and `page` are C# `int` (TableSync.cs:131-135, 210-215), and the `offset (page*rowsPerPage)` product (TableSync.cs:145, 229) overflows past 2^31. The model's counters are unbounded `nat`s, so wrap-around on tables of more than about two billion rows is not modelled. Affected-row counts are `nat` too (`Apply.Outcome`): under `SET NOCOUNT ON`, `ExecuteNonQueryAsync` returns -1, and the code adds that to `inserts`, `updates` and `deletes` unchanged (TableSync.cs:169, 190, 316, 356, 373), so those counters can decrease. The model does not cover a store with NOCOUNT on.
- Paging.WindowsCoverEveryKey: it assumes the key list is sorted by `Key`. Key pages are ordered by `orderByColumns` (TableSync.cs:61, 229), so that holds only when `Key` is the leading primary-key column.
- Binding.AddParameters: it runs outside every `try` (TableSync.cs:164, 185, 349), so a field missing from the type map would end the table's copy. The copy drivers take every bind as succeeding, because the row's fields are the sample's columns.

=== FILE: apply.dfy ===
/** Applying one classified window to the target (the two `foreach` loops of
    `SmartCopyAsync`): every delete first, then one fetch-and-write per source
    action tagged insert or update. Store results are inputs: how many rows the
    re-fetch of a composite key returns, and the outcome of each write. */
module Apply {
  import opened Wrappers
  import opened Text
  import opened Lists
  import opened Diff

  /** The result of `ExecuteNonQueryAsync`: the affected-row count, or the
      message of the exception it threw. The count is never the -1 a store
      with `SET NOCOUNT ON` returns. */
  datatype Outcome = Affected(count: nat) | Failed(message: string)

  /** A statement issued against the target, identified by composite key. */
  datatype Write = Delete(key: string, effective: int) | Insert(key: string, effective: int) | Update(key: string, effective: int)

  /** Which statement a write is. */
  datatype WriteKind = DeleteKind | InsertKind | UpdateKind

  function KindOf(w: Write): WriteKind
  {
    match w
    case Delete(_, _) => DeleteKind
    case Insert(_, _) => InsertKind
    case Update(_, _) => UpdateKind
  }

  datatype Counters = Counters(rows: nat, inserts: nat, updates: nat, deletes: nat, errors: nat)

  const Zero := Counters(0, 0, 0, 0, 0)

  /** Counter totals of two consecutive stretches of work. */
  function Add(a: Counters, b: Counters): Counters
  {
    Counters(a.rows + b.rows, a.inserts + b.inserts, a.updates + b.updates, a.deletes + b.deletes, a.errors + b.errors)
  }

  /** Counter totals of a run of stretches of work, first to last. */
  function Sum(cs: seq<Counters>): Counters
    decreases |cs|
  {
    if |cs| == 0 then Zero else Add(cs[0], Sum(cs[1..]))
  }

  /** Adding the stretches from the first to the last: the total of a
      non-empty run is that of all but the last stretch plus the last. */
  lemma {:induction false} SumLast(cs: seq<Counters>)
    requires |cs| > 0
    ensures Sum(cs) == Add(Sum(cs[..|cs| - 1]), cs[|cs| - 1])
    decreases |cs|
  {
    var n := |cs| - 1;
    if n == 0 {
      assert Sum(cs[1..]) == Zero;
      assert Sum(cs[..0]) == Zero;
    } else {
      SumLast(cs[1..]);
      assert cs[1..][..n - 1] == cs[..n][1..];
      assert cs[..n][0] == cs[0];
    }
  }

  /** No two actions share a composite key, as in a dictionary's values. */
  predicate DistinctActions(actions: seq<Action>)
  {
    forall i, j :: 0 <= i < j < |actions| ==> ActionComposite(actions[i]) != ActionComposite(actions[j])
  }

  predicate IsDeleteTagged(a: Action) { a.isDelete }

  function DeleteOf(a: Action): Write { Delete(a.key, a.effective) }

  /** The statement a source action tagged insert or update issues: the insert
      template wins when both flags are set. */
  function UpsertOf(a: Action): Write
  {
    if a.isInsert then Insert(a.key, a.effective) else Update(a.key, a.effective)
  }

  /** A delete that throws is not caught: it ends the table's copy. */
  datatype ApplyError = DeleteFailed(key: string, effective: int, message: string)

  /** One delete per delete-tagged target action, in dictionary order. */
  function DeletePlan(targetActions: seq<Action>): (p: seq<Write>)
    ensures forall w :: w in p ==> w.Delete?
    ensures forall w :: w in p <==> exists a :: a in targetActions && a.isDelete && w == Delete(a.key, a.effective)
    ensures |p| <= |targetActions|
    ensures p == Seq(Filter(targetActions, IsDeleteTagged), DeleteOf)
  {
    if |targetActions| == 0 then []
    else
      var a := targetActions[0];
      var here := if a.isDelete then [Delete(a.key, a.effective)] else [];
      var rest := DeletePlan(targetActions[1..]);
      DeleteMembersStep(targetActions, here, rest);
      var first := if a.isDelete then [a] else [];
      assert Filter(targetActions, IsDeleteTagged) == first + Filter(targetActions[1..], IsDeleteTagged);
      SeqAppend(first, Filter(targetActions[1..], IsDeleteTagged), DeleteOf);
      assert Seq(first, DeleteOf) == here;
      here + rest
  }

  /** Prepending the first action's delete, if it is delete-tagged, to the
      later actions' deletes gives exactly the deletes of all of them. */
  lemma DeleteMembersStep(targetActions: seq<Action>, here: seq<Write>, rest: seq<Write>)
    requires |targetActions| > 0
    requires here == if targetActions[0].isDelete then [Delete(targetActions[0].key, targetActions[0].effective)] else []
    requires forall w :: w in rest <==> exists a :: a in targetActions[1..] && a.isDelete && w == Delete(a.key, a.effective)
    ensures forall w :: w in here + rest <==> exists a :: a in targetActions && a.isDelete && w == Delete(a.key, a.effective)
  {
    assert forall b :: b in targetActions <==> b == targetActions[0] || b in targetActions[1..];
  }

  /** `n` copies of `w`: one write per row the re-fetch returned. */
  function Repeat(w: Write, n: nat): (p: seq<Write>)
    ensures |p| == n && forall x :: x in p ==> x == w
  {
    if n == 0 then [] else [w] + Repeat(w, n - 1)
  }

  lemma {:induction false} RepeatCount(w: Write, n: nat)
    ensures Count(Repeat(w, n), w) == n
  {
    if n > 0 {
      RepeatCount(w, n - 1);
      assert Repeat(w, n) == [w] + Repeat(w, n - 1);
    }
  }

  /** The writes of one source action: the insert statement when it is still
      tagged insert, else the update statement when tagged update, else none. */
  function SourceWrites(a: Action, fetched: nat): (p: seq<Write>)
    ensures a.isInsert ==> p == Repeat(Insert(a.key, a.effective), fetched)
    ensures !a.isInsert && a.isUpdate ==> p == Repeat(Update(a.key, a.effective), fetched)
    ensures !a.isInsert && !a.isUpdate ==> p == []
  {
    if a.isInsert then Repeat(Insert(a.key, a.effective), fetched)
    else if a.isUpdate then Repeat(Update(a.key, a.effective), fetched)
    else []
  }

  /** Number of writes a source action causes. */
  function WriteCount(a: Action, fetch: Composite -> nat): nat
  {
    if a.isInsert || a.isUpdate then fetch(ActionComposite(a)) else 0
  }

  function TotalWrites(actions: seq<Action>, fetch: Composite -> nat): nat
  {
    if |actions| == 0 then 0 else WriteCount(actions[0], fetch) + TotalWrites(actions[1..], fetch)
  }

  /** The source-side writes of the window, in dictionary order. */
  function UpsertPlan(sourceActions: seq<Action>, fetch: Composite -> nat): (p: seq<Write>)
    ensures |p| == TotalWrites(sourceActions, fetch)
    ensures forall w :: w in p ==> !w.Delete?
    ensures forall w :: w in p && w.Insert? ==> exists a :: a in sourceActions && a.isInsert && w == Insert(a.key, a.effective)
    ensures forall w :: w in p && w.Update? ==> exists a :: a in sourceActions && !a.isInsert && a.isUpdate && w == Update(a.key, a.effective)
    ensures forall k :: 0 <= k < |sourceActions| && (sourceActions[k].isInsert || sourceActions[k].isUpdate) ==>
      Count(p, UpsertOf(sourceActions[k])) >= fetch(ActionComposite(sourceActions[k]))
  {
    if |sourceActions| == 0 then []
    else
      var a := sourceActions[0];
      var here := SourceWrites(a, fetch(ActionComposite(a)));
      var rest := UpsertPlan(sourceActions[1..], fetch);
      UpsertProvenanceStep(sourceActions, here, rest);
      UpsertCountsStep(sourceActions, fetch, rest);
      here + rest
  }

  /** The first action's writes followed by the later actions' writes are
      all inserts or updates of insert- or update-tagged actions. */
  lemma UpsertProvenanceStep(sourceActions: seq<Action>, here: seq<Write>, rest: seq<Write>)
    requires |sourceActions| > 0
    requires here == SourceWrites(sourceActions[0], |here|)
    requires forall w :: w in rest ==> !w.Delete?
    requires forall w :: w in rest && w.Insert? ==> exists a :: a in sourceActions[1..] && a.isInsert && w == Insert(a.key, a.effective)
    requires forall w :: w in rest && w.Update? ==> exists a :: a in sourceActions[1..] && !a.isInsert && a.isUpdate && w == Update(a.key, a.effective)
    ensures forall w :: w in here + rest ==> !w.Delete?
    ensures forall w :: w in here + rest && w.Insert? ==> exists a :: a in sourceActions && a.isInsert && w == Insert(a.key, a.effective)
    ensures forall w :: w in here + rest && w.Update? ==> exists a :: a in sourceActions && !a.isInsert && a.isUpdate && w == Update(a.key, a.effective)
  {
    assert forall b :: b in sourceActions[1..] ==> b in sourceActions;
  }

  /** Prepending the first action's writes keeps every later action's count
      and gives the first action one write per re-fetched row. */
  lemma UpsertCountsStep(sourceActions: seq<Action>, fetch: Composite -> nat, rest: seq<Write>)
    requires |sourceActions| > 0
    requires forall k :: 0 <= k < |sourceActions[1..]| && (sourceActions[1..][k].isInsert || sourceActions[1..][k].isUpdate) ==>
      Count(rest, UpsertOf(sourceActions[1..][k])) >= fetch(ActionComposite(sourceActions[1..][k]))
    ensures forall k :: 0 <= k < |sourceActions| && (sourceActions[k].isInsert || sourceActions[k].isUpdate) ==>
      Count(SourceWrites(sourceActions[0], fetch(ActionComposite(sourceActions[0]))) + rest, UpsertOf(sourceActions[k])) >= fetch(ActionComposite(sourceActions[k]))
  {
    var a := sourceActions[0];
    var here := SourceWrites(a, fetch(ActionComposite(a)));
    RepeatCount(UpsertOf(a), fetch(ActionComposite(a)));
    assert multiset(here + rest) == multiset(here) + multiset(rest);
    assert forall k :: 1 <= k < |sourceActions| ==> sourceActions[k] == sourceActions[1..][k - 1];
  }

  /** With distinct composite keys, each source action tagged insert or update
      issues its statement exactly once per re-fetched row, and no other
      action issues that statement. */
  lemma {:induction false} UpsertPlanCounts(sourceActions: seq<Action>, fetch: Composite -> nat, k: nat)
    requires k < |sourceActions| && DistinctActions(sourceActions)
    requires sourceActions[k].isInsert || sourceActions[k].isUpdate
    ensures Count(UpsertPlan(sourceActions, fetch), UpsertOf(sourceActions[k])) == fetch(ActionComposite(sourceActions[k]))
    decreases |sourceActions|
  {
    var a := sourceActions[0];
    var rest := sourceActions[1..];
    var here := SourceWrites(a, fetch(ActionComposite(a)));
    var w := UpsertOf(sourceActions[k]);
    var p := UpsertPlan(sourceActions, fetch);
    assert p == here + UpsertPlan(rest, fetch);
    assert multiset(p) == multiset(here) + multiset(UpsertPlan(rest, fetch));
    if k == 0 {
      HeadNotInRest(sourceActions, fetch);
    } else {
      assert sourceActions[k] == rest[k - 1];
      assert DistinctActions(rest) by {
        forall i, j | 0 <= i < j < |rest| ensures ActionComposite(rest[i]) != ActionComposite(rest[j]) {
          assert rest[i] == sourceActions[i + 1] && rest[j] == sourceActions[j + 1];
        }
      }
      UpsertPlanCounts(rest, fetch, k - 1);
      assert ActionComposite(a) != ActionComposite(sourceActions[k]);
      assert w !in here;
    }
  }

  /** No write planned for the later actions carries the first action's
      composite key. */
  lemma HeadNotInRest(sourceActions: seq<Action>, fetch: Composite -> nat)
    requires |sourceActions| > 0 && DistinctActions(sourceActions)
    ensures forall x :: x in UpsertPlan(sourceActions[1..], fetch) ==> (x.key, x.effective) != ActionComposite(sourceActions[0])
  {
    var rest := sourceActions[1..];
    forall x | x in UpsertPlan(rest, fetch) ensures (x.key, x.effective) != ActionComposite(sourceActions[0]) {
      var b :| b in rest && (x == Insert(b.key, b.effective) || x == Update(b.key, b.effective));
      var m :| 0 <= m < |rest| && rest[m] == b;
      assert sourceActions[m + 1] == b;
    }
  }

  /** All writes of a window: deletes, then inserts and updates. */
  function Plan(c: Classified, fetch: Composite -> nat): (p: seq<Write>)
    ensures forall i, j :: 0 <= i < j < |p| && p[j].Delete? ==> p[i].Delete?
    ensures |p| == |DeletePlan(c.targetActions)| + TotalWrites(c.sourceActions, fetch)
  {
    DeletePlan(c.targetActions) + UpsertPlan(c.sourceActions, fetch)
  }

  /** An inert source action (neither insert nor update) causes no write, when
      composite keys are unique among the source actions. */
  lemma {:induction false} InertCausesNoWrite(actions: seq<Action>, fetch: Composite -> nat, k: nat)
    requires k < |actions|
    requires !actions[k].isInsert && !actions[k].isUpdate
    requires forall i, j :: 0 <= i < j < |actions| ==> ActionComposite(actions[i]) != ActionComposite(actions[j])
    ensures forall w :: w in UpsertPlan(actions, fetch) ==> (w.key, w.effective) != ActionComposite(actions[k])
    decreases |actions|
  {
    var a := actions[0];
    var rest := actions[1..];
    if k > 0 {
      InertCausesNoWrite(rest, fetch, k - 1);
      forall w | w in SourceWrites(a, fetch(ActionComposite(a)))
        ensures (w.key, w.effective) != ActionComposite(actions[k])
      {
        assert (w.key, w.effective) == ActionComposite(a);
      }
    } else {
      forall w | w in UpsertPlan(rest, fetch)
        ensures (w.key, w.effective) != ActionComposite(a)
      {
        var b :| b in rest && (b.isInsert || b.isUpdate) && (w.key, w.effective) == ActionComposite(b);
        var m :| 0 <= m < |rest| && rest[m] == b;
        assert actions[m + 1] == b;
      }
    }
  }

  /** Runs the planned writes with their outcomes: deletes add their affected
      count; a failed delete aborts; inserts and updates add their affected
      count, and each failed one adds one error and the run continues. */
  function Run(plan: seq<Write>, outcome: Write -> Outcome, c: Counters): (r: Result<Counters, ApplyError>)
    ensures r.Ok? <==> forall i :: 0 <= i < |plan| && plan[i].Delete? ==> outcome(plan[i]).Affected?
    ensures r.Ok? ==> r.value.rows == c.rows
    ensures r.Ok? ==> r.value.errors == c.errors + FailedWrites(plan, outcome)
    ensures r.Ok? ==> r.value.inserts == c.inserts + AffectedTotal(plan, outcome, InsertKind)
    ensures r.Ok? ==> r.value.updates == c.updates + AffectedTotal(plan, outcome, UpdateKind)
    ensures r.Ok? ==> r.value.deletes == c.deletes + AffectedTotal(plan, outcome, DeleteKind)
    ensures r.Err? ==> exists i :: (0 <= i < |plan| && plan[i].Delete? && outcome(plan[i]).Failed?
                                   && r.error == DeleteFailed(plan[i].key, plan[i].effective, outcome(plan[i]).message))
    decreases |plan|
  {
    if |plan| == 0 then Ok(c)
    else
      var w := plan[0];
      var result := outcome(w);
      var next :=
        match w
        case Delete(k, e) =>
          if result.Failed? then Err(DeleteFailed(k, e, result.message))
          else Ok(c.(deletes := c.deletes + result.count))
        case Insert(_, _) =>
          if result.Failed? then Ok(c.(errors := c.errors + 1))
          else Ok(c.(inserts := c.inserts + result.count))
        case Update(_, _) =>
          if result.Failed? then Ok(c.(errors := c.errors + 1))
          else Ok(c.(updates := c.updates + result.count));
      if next.Err? then next
      else
        var r := Run(plan[1..], outcome, next.value);
        assert forall i :: 1 <= i < |plan| ==> plan[1..][i - 1] == plan[i];
        r
  }

  /** The affected-row counts reported by the successful writes of one kind. */
  function AffectedTotal(plan: seq<Write>, outcome: Write -> Outcome, kind: WriteKind): nat
  {
    if |plan| == 0 then 0
    else
      var o := outcome(plan[0]);
      (if KindOf(plan[0]) == kind && o.Affected? then o.count else 0) + AffectedTotal(plan[1..], outcome, kind)
  }

  lemma {:induction false} AffectedAppend(a: seq<Write>, b: seq<Write>, outcome: Write -> Outcome, kind: WriteKind)
    ensures AffectedTotal(a + b, outcome, kind) == AffectedTotal(a, outcome, kind) + AffectedTotal(b, outcome, kind)
    decreases |a|
  {
    if |a| > 0 {
      assert (a + b)[1..] == a[1..] + b;
      AffectedAppend(a[1..], b, outcome, kind);
    } else {
      assert a + b == b;
    }
  }

  /** Writes of other kinds contribute nothing to a kind's total. */
  lemma {:induction false} AffectedNone(plan: seq<Write>, outcome: Write -> Outcome, kind: WriteKind)
    requires forall w :: w in plan ==> KindOf(w) != kind
    ensures AffectedTotal(plan, outcome, kind) == 0
    decreases |plan|
  {
    if |plan| > 0 {
      assert forall w :: w in plan[1..] ==> w in plan;
      AffectedNone(plan[1..], outcome, kind);
    }
  }

  /** The number of inserts and updates whose outcome is a failure. */
  function FailedWrites(plan: seq<Write>, outcome: Write -> Outcome): nat
  {
    if |plan| == 0 then 0
    else (if !plan[0].Delete? && outcome(plan[0]).Failed? then 1 else 0) + FailedWrites(plan[1..], outcome)
  }

  /** Applies a classified window: `rows` grows by the number of source actions,
      whether they cause a write or not; the counters are those of running the
      plan; the window aborts exactly when one of its deletes fails. */
  function ApplyWindow(c: Classified, fetch: Composite -> nat, outcome: Write -> Outcome, counters: Counters): (r: Result<Counters, ApplyError>)
    ensures r.Ok? <==> forall a :: a in c.targetActions && a.isDelete ==> outcome(Delete(a.key, a.effective)).Affected?
    ensures r.Ok? ==> r.value.rows == counters.rows + |c.sourceActions|
    ensures r.Ok? ==> r.value.errors == counters.errors + FailedWrites(Plan(c, fetch), outcome)
    ensures r.Ok? ==> r.value.errors <= counters.errors + TotalWrites(c.sourceActions, fetch)
    ensures r.Ok? ==> r.value.errors == counters.errors + UpsertFailures(c.sourceActions, fetch, outcome)
    ensures r.Ok? ==> r.value.deletes == counters.deletes + DeleteAffected(c.targetActions, outcome)
    ensures r.Ok? ==> r.value.inserts == counters.inserts + UpsertAffected(c.sourceActions, fetch, outcome, InsertKind)
    ensures r.Ok? ==> r.value.updates == counters.updates + UpsertAffected(c.sourceActions, fetch, outcome, UpdateKind)
  {
    var plan := Plan(c, fetch);
    var deletes := DeletePlan(c.targetActions);
    var upserts := UpsertPlan(c.sourceActions, fetch);
    PlanDeletes(c, fetch);
    FailedWritesAtMost(plan, outcome, |deletes|);
    AffectedAppend(deletes, upserts, outcome, DeleteKind);
    AffectedAppend(deletes, upserts, outcome, InsertKind);
    AffectedAppend(deletes, upserts, outcome, UpdateKind);
    AffectedNone(deletes, outcome, InsertKind);
    AffectedNone(deletes, outcome, UpdateKind);
    AffectedNone(upserts, outcome, DeleteKind);
    DeleteTotals(c.targetActions, outcome);
    UpsertTotals(c.sourceActions, fetch, outcome, InsertKind);
    UpsertTotals(c.sourceActions, fetch, outcome, UpdateKind);
    FailedAppend(deletes, upserts, outcome);
    FailedNone(deletes, outcome);
    Run(plan, outcome, counters.(rows := counters.rows + |c.sourceActions|))
  }

  /** What a window's inserts or updates add to one counter, action by action:
      a source action tagged insert or update issues its statement once per
      re-fetched row, and each of those writes that succeeds reports the
      action's affected count. */
  function UpsertAffected(actions: seq<Action>, fetch: Composite -> nat, outcome: Write -> Outcome, kind: WriteKind): nat
  {
    if |actions| == 0 then 0
    else
      var a := actions[0];
      var o := outcome(UpsertOf(a));
      (if (a.isInsert || a.isUpdate) && KindOf(UpsertOf(a)) == kind && o.Affected? then fetch(ActionComposite(a)) * o.count else 0)
        + UpsertAffected(actions[1..], fetch, outcome, kind)
  }

  /** One error per re-fetched row of each insert- or update-tagged action
      whose statement fails. */
  function UpsertFailures(actions: seq<Action>, fetch: Composite -> nat, outcome: Write -> Outcome): nat
  {
    if |actions| == 0 then 0
    else
      var a := actions[0];
      (if (a.isInsert || a.isUpdate) && outcome(UpsertOf(a)).Failed? then fetch(ActionComposite(a)) else 0)
        + UpsertFailures(actions[1..], fetch, outcome)
  }

  /** The affected counts of the deletes of the delete-tagged target actions. */
  function DeleteAffected(actions: seq<Action>, outcome: Write -> Outcome): nat
  {
    if |actions| == 0 then 0
    else
      var o := outcome(DeleteOf(actions[0]));
      (if actions[0].isDelete && o.Affected? then o.count else 0) + DeleteAffected(actions[1..], outcome)
  }

  lemma {:induction false} RepeatAffected(w: Write, n: nat, outcome: Write -> Outcome, kind: WriteKind)
    ensures AffectedTotal(Repeat(w, n), outcome, kind) == if KindOf(w) == kind && outcome(w).Affected? then n * outcome(w).count else 0
  {
    if n > 0 {
      RepeatAffected(w, n - 1, outcome, kind);
      var p := Repeat(w, n);
      assert p[0] == w && p[1..] == Repeat(w, n - 1);
      if KindOf(w) == kind && outcome(w).Affected? {
        MulStep(n, outcome(w).count);
      }
    }
  }

  lemma MulStep(n: nat, k: nat)
    requires n > 0
    ensures k + (n - 1) * k == n * k
  {
  }

  lemma {:induction false} RepeatFailed(w: Write, n: nat, outcome: Write -> Outcome)
    ensures FailedWrites(Repeat(w, n), outcome) == if !w.Delete? && outcome(w).Failed? then n else 0
  {
    if n > 0 {
      RepeatFailed(w, n - 1, outcome);
      assert Repeat(w, n)[1..] == Repeat(w, n - 1);
    }
  }

  lemma {:induction false} FailedAppend(a: seq<Write>, b: seq<Write>, outcome: Write -> Outcome)
    ensures FailedWrites(a + b, outcome) == FailedWrites(a, outcome) + FailedWrites(b, outcome)
    decreases |a|
  {
    if |a| > 0 {
      assert (a + b)[1..] == a[1..] + b;
      FailedAppend(a[1..], b, outcome);
    } else {
      assert a + b == b;
    }
  }

  /** Deletes never count as failed inserts or updates. */
  lemma {:induction false} FailedNone(plan: seq<Write>, outcome: Write -> Outcome)
    requires forall w :: w in plan ==> w.Delete?
    ensures FailedWrites(plan, outcome) == 0
    decreases |plan|
  {
    if |plan| > 0 {
      assert forall w :: w in plan[1..] ==> w in plan;
      FailedNone(plan[1..], outcome);
    }
  }

  /** The plan's inserts and updates report, kind by kind, what the actions
      add one by one; so do its failures. */
  lemma {:induction false} UpsertTotals(actions: seq<Action>, fetch: Composite -> nat, outcome: Write -> Outcome, kind: WriteKind)
    ensures AffectedTotal(UpsertPlan(actions, fetch), outcome, kind) == UpsertAffected(actions, fetch, outcome, kind)
    ensures FailedWrites(UpsertPlan(actions, fetch), outcome) == UpsertFailures(actions, fetch, outcome)
    decreases |actions|
  {
    if |actions| > 0 {
      var a := actions[0];
      var here := SourceWrites(a, fetch(ActionComposite(a)));
      assert UpsertPlan(actions, fetch) == here + UpsertPlan(actions[1..], fetch);
      UpsertTotals(actions[1..], fetch, outcome, kind);
      AffectedAppend(here, UpsertPlan(actions[1..], fetch), outcome, kind);
      FailedAppend(here, UpsertPlan(actions[1..], fetch), outcome);
      RepeatAffected(UpsertOf(a), fetch(ActionComposite(a)), outcome, kind);
      RepeatFailed(UpsertOf(a), fetch(ActionComposite(a)), outcome);
    }
  }

  /** The delete plan reports what the delete-tagged actions add one by one. */
  lemma {:induction false} DeleteTotals(actions: seq<Action>, outcome: Write -> Outcome)
    ensures AffectedTotal(DeletePlan(actions), outcome, DeleteKind) == DeleteAffected(actions, outcome)
    decreases |actions|
  {
    if |actions| > 0 {
      var a := actions[0];
      var here := if a.isDelete then [Delete(a.key, a.effective)] else [];
      assert DeletePlan(actions) == here + DeletePlan(actions[1..]);
      DeleteTotals(actions[1..], outcome);
      AffectedAppend(here, DeletePlan(actions[1..]), outcome, DeleteKind);
      assert here == [] || here[1..] == [];
    }
  }

  /** Only the writes after the first `skip` (all deletes there) can count as
      failed inserts or updates. */
  lemma {:induction false} FailedWritesAtMost(plan: seq<Write>, outcome: Write -> Outcome, skip: nat)
    requires skip <= |plan|
    requires forall i :: 0 <= i < skip ==> plan[i].Delete?
    ensures FailedWrites(plan, outcome) <= |plan| - skip
    decreases |plan|
  {
    if |plan| > 0 {
      FailedWritesAtMost(plan[1..], outcome, if skip > 0 then skip - 1 else 0);
    }
  }

  /** The deletes of a window's plan are exactly its delete-tagged target
      actions, and they come first. */
  lemma PlanDeletes(c: Classified, fetch: Composite -> nat)
    ensures forall i :: 0 <= i < |DeletePlan(c.targetActions)| ==> Plan(c, fetch)[i].Delete?
    ensures forall i :: 0 <= i < |Plan(c, fetch)| && Plan(c, fetch)[i].Delete? ==>
      exists a :: a in c.targetActions && a.isDelete && Plan(c, fetch)[i] == Delete(a.key, a.effective)
    ensures forall a :: a in c.targetActions && a.isDelete ==> Delete(a.key, a.effective) in Plan(c, fetch)
  {
    var plan := Plan(c, fetch);
    var deletes := DeletePlan(c.targetActions);
    var upserts := UpsertPlan(c.sourceActions, fetch);
    assert plan == deletes + upserts;
    forall i | 0 <= i < |plan| && plan[i].Delete?
      ensures plan[i] in deletes
    {
      if i >= |deletes| {
        assert false;
      } else {
        assert plan[i] == deletes[i];
      }
    }
    forall i | 0 <= i < |deletes| ensures plan[i].Delete? {
      assert plan[i] == deletes[i];
    }
  }
}

=== FILE: binding.dfy ===
/** How each column of a fetched row is bound as a command parameter
    (`AddParameters`). Values travel separately; only the parameter name and
    its binding kind are modelled. */
module Binding {
  import opened Wrappers
  import opened Text

  datatype BindKind =
      /** The `@Key` parameter: it is built with a `DbType` argument, which is
          not a `SqlDbType`, so the `(name, object value)` constructor is the
          one called; the initializer then replaces that value and sets the
          size, leaving a parameter of the given size whose type is inferred
          from the value (a string key becomes nvarchar(255), a date or an
          integer key keeps its own type). */
    | SizedInferred(size: nat)
    | DateTime2
    | BigInt
      /** `AddWithValue`: the provider infers the type from the value. */
    | Inferred

  datatype Parameter = Parameter(name: string, kind: BindKind)

  /** `columnDataTypes[name]` throws when the name is not in the type map. */
  datatype BindError = UnknownColumn(name: string)

  const KeySize: nat := 255

  /** The binding of one column: the exact parameter name `@Key` wins over any
      type; then `datetime2` and `bigint`, compared ignoring case. */
  function KindFor(parameterName: string, dataType: string): (k: BindKind)
    ensures parameterName == "@Key" ==> k == SizedInferred(KeySize)
    ensures parameterName != "@Key" ==> !k.SizedInferred?
    ensures k == DateTime2 <==> parameterName != "@Key" && EqualsIgnoreCase("datetime2", dataType)
    ensures k == BigInt <==> parameterName != "@Key" && EqualsIgnoreCase("bigint", dataType)
  {
    if "@Key" == parameterName then SizedInferred(KeySize)
    else if EqualsIgnoreCase("datetime2", dataType) then DateTime2
    else if EqualsIgnoreCase("bigint", dataType) then BigInt
    else Inferred
  }

  /** One parameter per field of the row, in field order, named `@field`;
      fails on the first field missing from the type map. */
  function AddParameters(fields: seq<string>, types: map<string, string>): (r: Result<seq<Parameter>, BindError>)
    ensures r.Ok? <==> forall i :: 0 <= i < |fields| ==> fields[i] in types
    ensures r.Ok? ==> |r.value| == |fields|
    ensures r.Ok? ==> forall i :: 0 <= i < |fields| ==>
      r.value[i].name == "@" + fields[i] && r.value[i].kind == KindFor("@" + fields[i], types[fields[i]])
    ensures r.Err? ==> exists i :: 0 <= i < |fields| && fields[i] !in types && r.error == UnknownColumn(fields[i])
    decreases |fields|
  {
    if |fields| == 0 then Ok([])
    else if fields[0] !in types then Err(UnknownColumn(fields[0]))
    else
      var name := "@" + fields[0];
      match AddParameters(fields[1..], types)
      case Err(e) => Err(e)
      case Ok(rest) => Ok([Parameter(name, KindFor(name, types[fields[0]]))] + rest)
  }

  /** Only the column spelled exactly `Key` takes the size-255 binding, whatever
      its data type; another spelling falls through to the type checks. */
  lemma {:induction false} KeyBindingIsExact(field: string, dataType: string)
    ensures KindFor("@" + field, dataType) == SizedInferred(KeySize) <==> field == "Key"
  {
    if field != "Key" {
      assert "@" + field != "@Key" by {
        if |field| == 3 {
          assert ("@" + field)[1..] == field;
        }
      }
    }
  }

  /** The type comparison ignores letter case: `DATETIME2` and `BigInt` are
      recognised; a column called `Key` of type `datetime2` still takes the
      size-255 binding with an inferred type, never the explicit DateTime2. */
  lemma TypeMatchIgnoresCase()
    ensures KindFor("@ValidFrom", "DATETIME2") == DateTime2
    ensures KindFor("@Id", "BigInt") == BigInt
    ensures KindFor("@Key", "datetime2") == SizedInferred(KeySize)
    ensures KindFor("@Name", "nvarchar") == Inferred
  {
    assert EqualsIgnoreCase("datetime2", "DATETIME2");
    assert EqualsIgnoreCase("bigint", "BigInt");
    assert !EqualsIgnoreCase("datetime2", "nvarchar") by { assert |"datetime2"| != |"nvarchar"|; }
    assert !EqualsIgnoreCase("bigint", "nvarchar") by { assert Lower("bigint"[0]) != Lower("nvarchar"[0]); }
  }
}

=== FILE: diff.dfy ===
/** The three-way classification of one diff window (`SmartCopyAsync`, the
    source and target triple reads). Each row is reduced to its
    `(Key, EffectiveDateUtc, LastUpdateUtc)` triple; timestamps are integer
    ticks of 100 ns. */
module Diff {
  import opened Wrappers

  const TicksPerMinute: int := 600_000_000
  /** A source row must be older than this before it may overwrite the target. */
  const SettleTicks: int := 30 * TicksPerMinute
  /** A source row must be newer than the target's by more than this. */
  const SkewTicks: int := 2 * TicksPerMinute

  datatype Triple = Triple(key: string, effective: int, lastUpdate: int)

  /** `TableColumnKeys`: the three action flags and the row's triple. */
  datatype Action = Action(isInsert: bool, isUpdate: bool, isDelete: bool, key: string, effective: int, lastUpdate: int)

  /** The dictionary key `Key_EffectiveDateUtc`. The timestamp is formatted to
      all seven fractional digits, a fixed width, so the text identifies the
      pair; it is modelled as the pair itself. */
  type Composite = (string, int)

  function CompositeOf(t: Triple): Composite { (t.key, t.effective) }

  function ActionComposite(a: Action): Composite { (a.key, a.effective) }

  /** `Dictionary.Add` of a composite key that is already present throws. */
  datatype DiffError = DuplicateSourceKey(composite: Composite) | DuplicateTargetKey(composite: Composite)

  /** The two action dictionaries, in insertion (that is, read) order. */
  datatype Classified = Classified(sourceActions: seq<Action>, targetActions: seq<Action>)

  /** The retag-to-update condition of a matched row. */
  predicate UpdateEligible(sourceLastUpdate: int, targetLastUpdate: int, now: int)
  {
    && sourceLastUpdate < now - SettleTicks
    && sourceLastUpdate > targetLastUpdate
    && sourceLastUpdate - targetLastUpdate > SkewTicks
  }

  predicate HasComposite(c: Composite, rows: seq<Triple>)
  {
    exists i :: 0 <= i < |rows| && CompositeOf(rows[i]) == c
  }

  predicate DistinctComposites(rows: seq<Triple>)
  {
    forall i, j :: 0 <= i < j < |rows| ==> CompositeOf(rows[i]) != CompositeOf(rows[j])
  }

  /** The first row with composite key `c`. */
  function FindComposite(c: Composite, rows: seq<Triple>): (r: Option<Triple>)
    ensures r.None? <==> !HasComposite(c, rows)
    ensures r.Some? ==> r.value in rows && CompositeOf(r.value) == c
  {
    if |rows| == 0 then None
    else if CompositeOf(rows[0]) == c then Some(rows[0])
    else
      var r := FindComposite(c, rows[1..]);
      assert HasComposite(c, rows[1..]) ==> HasComposite(c, rows) by {
        if HasComposite(c, rows[1..]) {
          var i :| 0 <= i < |rows[1..]| && CompositeOf(rows[1..][i]) == c;
          assert rows[i + 1] == rows[1..][i];
        }
      }
      assert HasComposite(c, rows) ==> HasComposite(c, rows[1..]) by {
        if HasComposite(c, rows) {
          var i :| 0 <= i < |rows| && CompositeOf(rows[i]) == c;
          assert rows[1..][i - 1] == rows[i];
        }
      }
      r
  }

  /** The dictionary lookup over actions: the index of the first action with
      composite key `c`. */
  function Lookup(actions: seq<Action>, c: Composite): (r: Option<nat>)
    ensures r.None? <==> forall k :: 0 <= k < |actions| ==> ActionComposite(actions[k]) != c
    ensures r.Some? ==> r.value < |actions| && ActionComposite(actions[r.value]) == c
  {
    if |actions| == 0 then None
    else if ActionComposite(actions[0]) == c then Some(0)
    else match Lookup(actions[1..], c)
      case None => None
      case Some(k) => Some(k + 1)
  }

  /** What the source action of `s` ends up as once every target row is read:
      an insert when the target has no row with its composite key; otherwise not
      an insert, and an update exactly when the matched target row is old
      enough to be overwritten. Never a delete. */
  function ExpectedSource(s: Triple, target: seq<Triple>, now: int): Action
  {
    match FindComposite(CompositeOf(s), target)
    case None => Action(true, false, false, s.key, s.effective, s.lastUpdate)
    case Some(t) => Action(false, UpdateEligible(s.lastUpdate, t.lastUpdate, now), false, s.key, s.effective, s.lastUpdate)
  }

  /** What the target action of `t` is: a delete exactly when the source has no
      row with its composite key. Never an insert or an update. */
  function ExpectedTarget(t: Triple, source: seq<Triple>): Action
  {
    Action(false, false, !HasComposite(CompositeOf(t), source), t.key, t.effective, t.lastUpdate)
  }

  /** Both dictionaries as the reference definitions give them, in read order. */
  function ExpectedClassified(source: seq<Triple>, target: seq<Triple>, now: int): (r: Classified)
    ensures |r.sourceActions| == |source| && |r.targetActions| == |target|
  {
    Classified(
      seq(|source|, k requires 0 <= k < |source| => ExpectedSource(source[k], target, now)),
      seq(|target|, k requires 0 <= k < |target| => ExpectedTarget(target[k], source)))
  }

  /** Action lists that agree with the reference definitions row by row are
      the reference classification. */
  lemma IsExpectedClassified(c: Classified, source: seq<Triple>, target: seq<Triple>, now: int)
    requires |c.sourceActions| == |source| && |c.targetActions| == |target|
    requires forall k :: 0 <= k < |source| ==> c.sourceActions[k] == ExpectedSource(source[k], target, now)
    requires forall k :: 0 <= k < |target| ==> c.targetActions[k] == ExpectedTarget(target[k], source)
    ensures c == ExpectedClassified(source, target, now)
  {
    var e := ExpectedClassified(source, target, now);
    assert c.sourceActions == e.sourceActions;
    assert c.targetActions == e.targetActions;
  }

  lemma {:induction false} FindCompositeAppend(c: Composite, rows: seq<Triple>, t: Triple)
    ensures FindComposite(c, rows + [t]) ==
      if FindComposite(c, rows).Some? then FindComposite(c, rows)
      else if CompositeOf(t) == c then Some(t) else None
    decreases |rows|
  {
    if |rows| > 0 {
      assert (rows + [t])[1..] == rows[1..] + [t];
      FindCompositeAppend(c, rows[1..], t);
    }
  }

  /** The source action before any target row is read: tagged insert. */
  function Inserted(s: Triple): (a: Action)
    ensures forall now :: a == ExpectedSource(s, [], now)
  {
    Action(true, false, false, s.key, s.effective, s.lastUpdate)
  }

  /** Reading one more target row `t` whose composite key is new changes only
      the expected action of the source row with that composite key. */
  lemma ExtendTarget(s: Triple, prefix: seq<Triple>, t: Triple, now: int)
    requires !HasComposite(CompositeOf(t), prefix)
    ensures ExpectedSource(s, prefix + [t], now) ==
      if CompositeOf(s) == CompositeOf(t)
      then Action(false, UpdateEligible(s.lastUpdate, t.lastUpdate, now), false, s.key, s.effective, s.lastUpdate)
      else ExpectedSource(s, prefix, now)
  {
    FindCompositeAppend(CompositeOf(s), prefix, t);
  }

  lemma DistinctAppend(rows: seq<Triple>, t: Triple)
    requires DistinctComposites(rows) && !HasComposite(CompositeOf(t), rows)
    ensures DistinctComposites(rows + [t])
  {
    var all := rows + [t];
    forall i, j | 0 <= i < j < |all| ensures CompositeOf(all[i]) != CompositeOf(all[j]) {
      if j == |rows| {
        assert all[i] == rows[i];
      } else {
        assert all[i] == rows[i] && all[j] == rows[j];
      }
    }
  }

  /** The source read: every triple is added to the dictionary tagged insert,
      failing on the first repeated composite key. */
  method LoadSource(source: seq<Triple>) returns (r: Result<seq<Action>, DiffError>)
    ensures r.Ok? <==> DistinctComposites(source)
    ensures r.Ok? ==> |r.value| == |source| && forall k :: 0 <= k < |source| ==> r.value[k] == Inserted(source[k])
    ensures r.Err? ==> r.error.DuplicateSourceKey?
  {
    var actions: seq<Action> := [];
    var i := 0;
    while i < |source|
      invariant 0 <= i <= |source|
      invariant |actions| == i
      invariant forall k :: 0 <= k < i ==> actions[k] == Inserted(source[k])
      invariant DistinctComposites(source[..i])
    {
      var c := CompositeOf(source[i]);
      var found := Lookup(actions, c);
      if found.Some? {
        assert CompositeOf(source[found.value]) == c;
        return Err(DuplicateSourceKey(c));
      }
      actions := actions + [Inserted(source[i])];
      assert forall k :: 0 <= k < i ==> CompositeOf(source[..i + 1][k]) == ActionComposite(actions[k]);
      i := i + 1;
    }
    assert source[..i] == source;
    r := Ok(actions);
  }

  /** One target row: add it to the target dictionary (failing on a repeated
      composite key); retag the source action with the same composite key, or
      else mark the target action a delete. */
  method AddTargetRow(source: seq<Triple>, prefix: seq<Triple>, sourceActions: seq<Action>, targetActions: seq<Action>, t: Triple, now: int)
    returns (r: Result<(seq<Action>, seq<Action>), DiffError>)
    requires DistinctComposites(source) && DistinctComposites(prefix)
    requires |sourceActions| == |source| && forall k :: 0 <= k < |source| ==> sourceActions[k] == ExpectedSource(source[k], prefix, now)
    requires |targetActions| == |prefix| && forall k :: 0 <= k < |prefix| ==> targetActions[k] == ExpectedTarget(prefix[k], source)
    ensures r.Ok? <==> !HasComposite(CompositeOf(t), prefix)
    ensures r.Err? ==> r.error == DuplicateTargetKey(CompositeOf(t))
    ensures r.Ok? ==> DistinctComposites(prefix + [t])
    ensures r.Ok? ==> |r.value.0| == |source| && forall k :: 0 <= k < |source| ==> r.value.0[k] == ExpectedSource(source[k], prefix + [t], now)
    ensures r.Ok? ==> r.value.1 == targetActions + [ExpectedTarget(t, source)]
  {
    var c := CompositeOf(t);
    var seen := Lookup(targetActions, c);
    if seen.Some? {
      assert CompositeOf(prefix[seen.value]) == c;
      return Err(DuplicateTargetKey(c));
    }
    assert !HasComposite(c, prefix) by {
      forall k | 0 <= k < |prefix| ensures CompositeOf(prefix[k]) != c {
        assert ActionComposite(targetActions[k]) == CompositeOf(prefix[k]);
      }
    }
    DistinctAppend(prefix, t);
    forall k | 0 <= k < |source|
      ensures ExpectedSource(source[k], prefix + [t], now) ==
        if CompositeOf(source[k]) == c
        then Action(false, UpdateEligible(source[k].lastUpdate, t.lastUpdate, now), false, source[k].key, source[k].effective, source[k].lastUpdate)
        else ExpectedSource(source[k], prefix, now)
    {
      ExtendTarget(source[k], prefix, t, now);
    }
    var matched := Lookup(sourceActions, c);
    if matched.Some? {
      var k := matched.value;
      assert CompositeOf(source[k]) == c;
      var action := sourceActions[k].(isInsert := false);
      if UpdateEligible(action.lastUpdate, t.lastUpdate, now) {
        action := action.(isUpdate := true);
      }
      assert HasComposite(c, source);
      r := Ok((sourceActions[k := action], targetActions + [Action(false, false, false, t.key, t.effective, t.lastUpdate)]));
    } else {
      assert !HasComposite(c, source) by {
        forall k | 0 <= k < |source| ensures CompositeOf(source[k]) != c {
          assert ActionComposite(sourceActions[k]) == CompositeOf(source[k]);
        }
      }
      r := Ok((sourceActions, targetActions + [Action(false, false, true, t.key, t.effective, t.lastUpdate)]));
    }
  }

  /** The classification loop: load the source as inserts, then read the
      target row by row. */
  method Classify(source: seq<Triple>, target: seq<Triple>, now: int) returns (r: Result<Classified, DiffError>)
    ensures r.Ok? <==> DistinctComposites(source) && DistinctComposites(target)
    ensures r.Ok? ==> |r.value.sourceActions| == |source| && |r.value.targetActions| == |target|
    ensures r.Ok? ==> forall k :: 0 <= k < |source| ==> r.value.sourceActions[k] == ExpectedSource(source[k], target, now)
    ensures r.Ok? ==> forall k :: 0 <= k < |target| ==> r.value.targetActions[k] == ExpectedTarget(target[k], source)
    ensures r.Err? && r.error.DuplicateSourceKey? ==> !DistinctComposites(source)
    ensures r.Err? && r.error.DuplicateTargetKey? ==> DistinctComposites(source) && !DistinctComposites(target)
  {
    var loaded := LoadSource(source);
    if loaded.Err? {
      return Err(loaded.error);
    }
    var sourceActions := loaded.value;
    assert target[..0] == [];
    var targetActions: seq<Action> := [];
    var j := 0;
    while j < |target|
      invariant 0 <= j <= |target|
      invariant |sourceActions| == |source|
      invariant forall k :: 0 <= k < |source| ==> sourceActions[k] == ExpectedSource(source[k], target[..j], now)
      invariant |targetActions| == j
      invariant forall k :: 0 <= k < j ==> targetActions[k] == ExpectedTarget(target[k], source)
      invariant DistinctComposites(target[..j])
    {
      assert target[..j + 1] == target[..j] + [target[j]];
      var added := AddTargetRow(source, target[..j], sourceActions, targetActions, target[j], now);
      if added.Err? {
        assert !DistinctComposites(target) by {
          var i :| 0 <= i < j && CompositeOf(target[..j][i]) == CompositeOf(target[j]);
          assert target[i] == target[..j][i];
        }
        return Err(added.error);
      }
      sourceActions, targetActions := added.value.0, added.value.1;
      j := j + 1;
    }
    assert target[..j] == target;
    r := Ok(Classified(sourceActions, targetActions));
  }

  /** A source action: never a delete; an insert exactly when the target has no
      row with its composite key; an update exactly when the matched target row
      is older by more than two minutes and the source row is more than thirty
      minutes old (the `source > target` test is implied); never both. */
  lemma SourceActionFacts(s: Triple, target: seq<Triple>, now: int)
    requires DistinctComposites(target)
    ensures var a := ExpectedSource(s, target, now);
      && !a.isDelete
      && !(a.isInsert && a.isUpdate)
      && (a.key, a.effective, a.lastUpdate) == (s.key, s.effective, s.lastUpdate)
      && (a.isInsert <==> !HasComposite(CompositeOf(s), target))
      && (a.isUpdate <==> (exists j :: 0 <= j < |target| && CompositeOf(target[j]) == CompositeOf(s)
                            && s.lastUpdate < now - SettleTicks && s.lastUpdate - target[j].lastUpdate > SkewTicks))
  {
    var a := ExpectedSource(s, target, now);
    var found := FindComposite(CompositeOf(s), target);
    if found.Some? {
      var t := found.value;
      var m :| 0 <= m < |target| && target[m] == t;
      forall j | 0 <= j < |target| && CompositeOf(target[j]) == CompositeOf(s)
        ensures target[j] == t
      {
        assert j == m;
      }
    }
  }

  /** A target action is never an insert or an update, and is a delete exactly
      when the source has no row with its composite key. */
  lemma TargetActionFacts(t: Triple, source: seq<Triple>)
    ensures var a := ExpectedTarget(t, source);
      && !a.isInsert && !a.isUpdate
      && (a.key, a.effective, a.lastUpdate) == (t.key, t.effective, t.lastUpdate)
      && (a.isDelete <==> forall i :: 0 <= i < |source| ==> CompositeOf(source[i]) != CompositeOf(t))
  {
  }

  /** Re-diffing a window whose target already holds exactly the source's
      triples produces no insert, no update and no delete: a second run after a
      complete one with no source changes is quiet. */
  lemma {:induction false} ResyncIsQuiet(source: seq<Triple>, target: seq<Triple>, now: int)
    requires DistinctComposites(source) && DistinctComposites(target)
    requires forall t :: t in target <==> t in source
    ensures forall k :: 0 <= k < |source| ==> !ExpectedSource(source[k], target, now).isInsert && !ExpectedSource(source[k], target, now).isUpdate
    ensures forall k :: 0 <= k < |target| ==> !ExpectedTarget(target[k], source).isDelete
  {
    forall k | 0 <= k < |source|
      ensures !ExpectedSource(source[k], target, now).isInsert && !ExpectedSource(source[k], target, now).isUpdate
    {
      var s := source[k];
      assert s in target;
      var m :| 0 <= m < |target| && target[m] == s;
      assert HasComposite(CompositeOf(s), target);
      var t := FindComposite(CompositeOf(s), target).value;
      assert t in source;
      var n :| 0 <= n < |source| && source[n] == t;
      assert n == k;
    }
    forall k | 0 <= k < |target|
      ensures !ExpectedTarget(target[k], source).isDelete
    {
      assert target[k] in source;
      var n :| 0 <= n < |source| && source[n] == target[k];
      assert HasComposite(CompositeOf(target[k]), source);
    }
  }

  /** Worked cases with `now` = T0 and keys `X` and `Y`: an unmatched source row
      is an insert; a matched one forty minutes old and ten minutes newer than
      the target is an update; one only twenty minutes old, or only one minute
      newer, stays inert; an unmatched target row is a delete. */
  lemma Scenarios(t0: int, t1: int)
    ensures ExpectedSource(Triple("X", t0, t0 - 45 * TicksPerMinute), [], t0).isInsert
    ensures var a := ExpectedSource(Triple("X", t0, t0 - 40 * TicksPerMinute), [Triple("X", t0, t0 - 50 * TicksPerMinute)], t0);
      !a.isInsert && a.isUpdate
    ensures var a := ExpectedSource(Triple("X", t0, t0 - 20 * TicksPerMinute), [Triple("X", t0, t0 - 50 * TicksPerMinute)], t0);
      !a.isInsert && !a.isUpdate
    ensures var a := ExpectedSource(Triple("X", t0, t0 - 40 * TicksPerMinute), [Triple("X", t0, t0 - 41 * TicksPerMinute)], t0);
      !a.isInsert && !a.isUpdate
    ensures ExpectedTarget(Triple("Y", t1, t0), [Triple("X", t0, t0)]).isDelete
  {
    assert !HasComposite(("X", t0), []);
    assert CompositeOf(Triple("X", t0, 0)) == ("X", t0);
    assert !HasComposite(("Y", t1), [Triple("X", t0, t0)]) by {
      assert CompositeOf([Triple("X", t0, t0)][0]) != ("Y", t1);
    }
  }
}

=== FILE: fullscan.dfy ===
/** The full-scan copy of a table without the versioning columns
    (`BruteForceCopyAsync`): page through the ordered source until a page is
    empty, and upsert every row: insert first, update only when the insert
    failed on a duplicate key. The source rows are a static, ordered input;
    the outcome of each row's insert and update is an input too. */
module FullScan {
  import opened Text
  import opened Paging
  import opened Apply

  /** A source row; its values only travel as bound parameters. */
  datatype Row = Row(values: seq<string>)

  /** What the target answers for one row: the insert's outcome, and the
      outcome the update would have if it is issued. */
  datatype RowResult = RowResult(insert: Outcome, update: Outcome)

  datatype Attempt = InsertAttempt(row: Row) | UpdateAttempt(row: Row)

  const DuplicateKeyMessage := "Cannot insert duplicate key"

  /** The only insert failure that falls back to an update. */
  predicate IsDuplicateKey(o: Outcome)
  {
    o.Failed? && Contains(o.message, DuplicateKeyMessage)
  }

  /** The row ends up counted as an error: a non-duplicate insert failure, or a
      failed fallback update. */
  predicate RowFails(res: RowResult)
  {
    (res.insert.Failed? && !IsDuplicateKey(res.insert)) || (IsDuplicateKey(res.insert) && res.update.Failed?)
  }

  /** The per-row upsert: one insert attempt, then an update attempt only after
      a duplicate-key insert failure. `rows` grows by one; `inserts` and
      `updates` by the affected counts of the successful statements; `errors`
      by exactly one when the row fails and by nothing otherwise. */
  function Upsert(row: Row, res: RowResult, c: Counters): (r: (Counters, seq<Attempt>))
    ensures r.1 == if IsDuplicateKey(res.insert) then [InsertAttempt(row), UpdateAttempt(row)] else [InsertAttempt(row)]
    ensures r.0.rows == c.rows + 1 && r.0.deletes == c.deletes
    ensures r.0.errors == c.errors + (if RowFails(res) then 1 else 0)
    ensures r.0.inserts == c.inserts + (if res.insert.Affected? then res.insert.count else 0)
    ensures r.0.updates == c.updates + (if IsDuplicateKey(res.insert) && res.update.Affected? then res.update.count else 0)
  {
    var c := c.(rows := c.rows + 1);
    match res.insert
    case Affected(n) => (c.(inserts := c.inserts + n), [InsertAttempt(row)])
    case Failed(message) =>
      if !Contains(message, DuplicateKeyMessage) then (c.(errors := c.errors + 1), [InsertAttempt(row)])
      else
        match res.update
        case Affected(n) => (c.(updates := c.updates + n), [InsertAttempt(row), UpdateAttempt(row)])
        case Failed(_) => (c.(errors := c.errors + 1), [InsertAttempt(row), UpdateAttempt(row)])
  }

  /** Counters and attempts of upserting `rows` in order, as a reference for
      the paged loop. */
  function Scan(rows: seq<Row>, results: seq<RowResult>): (r: (Counters, seq<Attempt>))
    requires |results| == |rows|
    decreases |rows|
  {
    if |rows| == 0 then (Zero, [])
    else
      var prev := Scan(rows[..|rows| - 1], results[..|rows| - 1]);
      var step := Upsert(rows[|rows| - 1], results[|rows| - 1], prev.0);
      (step.0, prev.1 + step.1)
  }

  function FailCount(results: seq<RowResult>): nat
  {
    if |results| == 0 then 0 else (if RowFails(results[0]) then 1 else 0) + FailCount(results[1..])
  }

  /** The number of rows whose insert hit a duplicate key. */
  function DuplicateCount(results: seq<RowResult>): nat
  {
    if |results| == 0 then 0 else (if IsDuplicateKey(results[0].insert) then 1 else 0) + DuplicateCount(results[1..])
  }

  lemma {:induction false} CountsOfLast(results: seq<RowResult>)
    requires |results| > 0
    ensures FailCount(results) == FailCount(results[..|results| - 1]) + (if RowFails(results[|results| - 1]) then 1 else 0)
    ensures DuplicateCount(results) == DuplicateCount(results[..|results| - 1]) + (if IsDuplicateKey(results[|results| - 1].insert) then 1 else 0)
    decreases |results|
  {
    if |results| > 1 {
      CountsOfLast(results[1..]);
      assert results[1..][..|results[1..]| - 1] == results[..|results| - 1][1..];
    }
  }

  /** Over a whole scan: `rows` is the number of source rows; `errors` is the
      number of failing rows, so no row adds more than one; there is one insert
      attempt per row, plus one update attempt per duplicate-key insert; and
      nothing is ever deleted. */
  lemma {:induction false} ScanCounts(rows: seq<Row>, results: seq<RowResult>)
    requires |results| == |rows|
    ensures Scan(rows, results).0.rows == |rows|
    ensures Scan(rows, results).0.errors == FailCount(results) <= |rows|
    ensures Scan(rows, results).0.deletes == 0
    ensures |Scan(rows, results).1| == |rows| + DuplicateCount(results)
    decreases |rows|
  {
    if |rows| > 0 {
      ScanCounts(rows[..|rows| - 1], results[..|rows| - 1]);
      CountsOfLast(results);
    }
  }

  /** Two fresh rows with a successful insert each: two rows, two inserts, no
      update and no error. */
  lemma TwoFreshRows()
    ensures Scan([Row(["1", "a"]), Row(["2", "b"])], [RowResult(Affected(1), Affected(0)), RowResult(Affected(1), Affected(0))]).0
      == Counters(2, 2, 0, 0, 0)
  {
    var rows := [Row(["1", "a"]), Row(["2", "b"])];
    var results := [RowResult(Affected(1), Affected(0)), RowResult(Affected(1), Affected(0))];
    assert rows[..1] == [Row(["1", "a"])] && results[..1] == [RowResult(Affected(1), Affected(0))];
    assert rows[..1][..0] == [];
  }

  /** The paged loop: read page 0, 1, 2, ... of the ordered source and upsert
      each row of the page, stopping at the first empty page. Every source row
      is visited exactly once, in order, and the counters are those of upserting
      the whole table. */
  method FullScanCopy(rows: seq<Row>, results: seq<RowResult>, rowsPerPage: nat) returns (c: Counters, attempts: seq<Attempt>, visited: seq<Row>)
    requires |results| == |rows| && rowsPerPage > 0
    ensures visited == rows
    ensures (c, attempts) == Scan(rows, results)
  {
    c := Zero;
    attempts := [];
    visited := [];
    var page: nat := 0;
    var offset: nat := 0;
    while true
      invariant offset == page * rowsPerPage
      invariant offset < |rows| + rowsPerPage
      invariant |visited| == Min(offset, |rows|)
      invariant visited == rows[..|visited|]
      invariant (c, attempts) == Scan(rows[..|visited|], results[..|visited|])
      decreases |rows| + rowsPerPage - offset
    {
      var p := Page(rows, page, rowsPerPage);
      if |p| == 0 {
        break;
      }
      PageLength(rows, page, rowsPerPage);
      var i := 0;
      while i < |p|
        invariant 0 <= i <= |p|
        invariant |visited| == offset + i
        invariant visited == rows[..|visited|]
        invariant (c, attempts) == Scan(rows[..|visited|], results[..|visited|])
      {
        var k := offset + i;
        var step := Upsert(p[i], results[k], c);
        assert rows[..k + 1][..k] == rows[..k] && results[..k + 1][..k] == results[..k];
        c := step.0;
        attempts := attempts + step.1;
        visited := visited + [p[i]];
        i := i + 1;
      }
      NextPageStart(page, rowsPerPage);
      page := page + 1;
      offset := offset + rowsPerPage;
    }
    assert rows[..|rows|] == rows && results[..|rows|] == results;
  }
}

=== FILE: lists.dfy ===
/** Order-preserving selection from a list, as done by the source's
    `for (i ...) if (keep(name_i)) ...` loops over a reader's columns, and the
    element-wise image of a list. */
module Lists {

  /** `r` can be obtained from `s` by deleting elements, without reordering. */
  predicate IsSubsequence<T(==)>(r: seq<T>, s: seq<T>)
    decreases |s|
  {
    if |r| == 0 then true
    else if |s| == 0 then false
    else if r[0] == s[0] then IsSubsequence(r[1..], s[1..])
    else IsSubsequence(r, s[1..])
  }

  /** Number of occurrences of `x` in `s`. */
  function Count<T(==)>(s: seq<T>, x: T): nat
  {
    multiset(s)[x]
  }

  /** The elements of `s` that satisfy `keep`, in the order of `s`. */
  function Filter<T>(s: seq<T>, keep: T -> bool): (r: seq<T>)
    ensures |r| <= |s|
    ensures forall x :: x in r ==> x in s && keep(x)
    ensures forall i :: 0 <= i < |s| && keep(s[i]) ==> s[i] in r
  {
    if |s| == 0 then []
    else (if keep(s[0]) then [s[0]] else []) + Filter(s[1..], keep)
  }

  /** `Filter` is the unique order-preserving selection: it is a subsequence
      of its input and keeps every kept element exactly as often as it occurs. */
  lemma {:induction false} FilterSelects<T>(s: seq<T>, keep: T -> bool)
    ensures IsSubsequence(Filter(s, keep), s)
    ensures forall x :: Count(Filter(s, keep), x) == if keep(x) then Count(s, x) else 0
    decreases |s|
  {
    if |s| > 0 {
      FilterSelects(s[1..], keep);
      assert s == [s[0]] + s[1..];
      var rest := Filter(s[1..], keep);
      if keep(s[0]) {
        assert Filter(s, keep)[1..] == rest;
      } else {
        assert Filter(s, keep) == rest;
        if |rest| > 0 {
          assert rest[0] in rest;
        }
      }
    }
  }

  /** The element-wise image of a sequence. */
  function Seq<T, U>(items: seq<T>, f: T -> U): (r: seq<U>)
    ensures |r| == |items|
    ensures forall i :: 0 <= i < |items| ==> r[i] == f(items[i])
  {
    seq(|items|, i requires 0 <= i < |items| => f(items[i]))
  }

  /** Mapping a concatenation maps each part. */
  lemma SeqAppend<T, U>(a: seq<T>, b: seq<T>, f: T -> U)
    ensures Seq(a + b, f) == Seq(a, f) + Seq(b, f)
  {
    assert forall i :: 0 <= i < |a| ==> (a + b)[i] == a[i];
    assert forall i :: |a| <= i < |a| + |b| ==> (a + b)[i] == b[i - |a|];
  }
}

=== FILE: metadata.dfy ===
/** The metadata probe of a table and the insert/update statement templates
    built from it (`LoadSourceTableMetadataAsync`). The three catalog queries
    are replaced by their results: the ordered primary-key column names, the
    identity column names, and the columns of the one-row sample query with
    their data-type names. */
module Metadata {
  import opened Wrappers
  import opened Text
  import opened Lists

  /** One column of the sample query's schema table. */
  datatype ColumnInfo = ColumnInfo(name: string, dataType: string)

  /** Failures that end the processing of one table before any copy starts. */
  datatype SchemaError =
    | NoPrimaryKey
      /** `Dictionary.Add` of a column name that is already present. */
    | DuplicateColumn(name: string)

  /** The WHERE clause of the update template. */
  datatype WhereClause =
    | VersionedWhere
      /** `where 1=1` plus one equality per listed column. */
    | KeyWhere(keyColumns: seq<string>)

  /** The column lists the two generated statements are rendered from. */
  datatype WriteTemplate = WriteTemplate(insertColumns: seq<string>, setColumns: seq<string>, where: WhereClause)

  datatype TableMetadata = TableMetadata(
    primaryKeys: seq<string>,
    identity: seq<string>,
    columns: seq<string>,
    types: map<string, string>,
    /** Built only when the sample query returned a row. */
    template: Option<WriteTemplate>)

  const KeyColumn := "Key"
  const EffectiveColumn := "EffectiveDateUtc"
  const LastUpdateColumn := "LastUpdateUtc"

  /** A table is versioned when its column-type map has all three special
      columns; `Dictionary.ContainsKey` compares names exactly. */
  predicate IsVersioned(types: map<string, string>)
  {
    KeyColumn in types && EffectiveColumn in types && LastUpdateColumn in types
  }

  predicate DistinctNames(columns: seq<ColumnInfo>)
  {
    forall i, j :: 0 <= i < j < |columns| ==> columns[i].name != columns[j].name
  }

  function Names(columns: seq<ColumnInfo>): (r: seq<string>)
    ensures |r| == |columns|
    ensures forall i :: 0 <= i < |columns| ==> r[i] == columns[i].name
  {
    Seq(columns, (c: ColumnInfo) => c.name)
  }

  /** Adds the sample's columns to the type map one by one, failing on the
      first name that is already a key, as `Dictionary.Add` throws. */
  function AddColumnTypes(columns: seq<ColumnInfo>, acc: map<string, string>): (r: Result<map<string, string>, SchemaError>)
    ensures r.Ok? <==> DistinctNames(columns) && forall i :: 0 <= i < |columns| ==> columns[i].name !in acc
    ensures r.Ok? ==> forall n :: n in r.value <==> n in acc || n in Names(columns)
    ensures r.Ok? ==> forall i :: 0 <= i < |columns| ==> columns[i].name in r.value && r.value[columns[i].name] == columns[i].dataType
    ensures r.Ok? ==> forall n :: n in acc ==> r.value[n] == acc[n]
    ensures r.Err? ==> exists i :: 0 <= i < |columns| && r.error == DuplicateColumn(columns[i].name)
    decreases |columns|
  {
    if |columns| == 0 then Ok(acc)
    else if columns[0].name in acc then Err(DuplicateColumn(columns[0].name))
    else
      assert Names(columns) == [columns[0].name] + Names(columns[1..]);
      AddColumnTypes(columns[1..], acc[columns[0].name := columns[0].dataType])
  }

  function ColumnTypes(columns: seq<ColumnInfo>): (r: Result<map<string, string>, SchemaError>)
    ensures r.Ok? <==> DistinctNames(columns)
    ensures r.Ok? ==> forall n :: n in r.value <==> n in Names(columns)
    ensures r.Ok? ==> forall i :: 0 <= i < |columns| ==> columns[i].name in r.value && r.value[columns[i].name] == columns[i].dataType
  {
    AddColumnTypes(columns, map[])
  }

  /** Names excluded from the update's SET list, compared ignoring case. */
  predicate IsSetExcluded(name: string)
  {
    EqualsIgnoreCase(KeyColumn, name) || EqualsIgnoreCase(EffectiveColumn, name)
  }

  predicate KeepForInsert(identity: seq<string>, name: string) { name !in identity }

  predicate KeepForSet(name: string) { !IsSetExcluded(name) }

  predicate KeepForWhere(primaryKeys: seq<string>, name: string) { name in primaryKeys }

  /** The insert list: the sample columns that are not identity columns (an
      exact `List.Contains`), every one of them, in sample order. */
  function InsertColumns(names: seq<string>, identity: seq<string>): (r: seq<string>)
    ensures forall n :: n in r <==> n in names && n !in identity
    ensures IsSubsequence(r, names)
    ensures forall n :: Count(r, n) == if n in identity then 0 else Count(names, n)
  {
    var keep := (n: string) => KeepForInsert(identity, n);
    FilterSelects(names, keep);
    Filter(names, keep)
  }

  /** The SET list drops only `Key` and `EffectiveDateUtc`, in any letter case;
      identity and primary-key columns stay in it. */
  function SetColumns(names: seq<string>): (r: seq<string>)
    ensures forall n :: n in r <==> n in names && !IsSetExcluded(n)
    ensures IsSubsequence(r, names)
    ensures forall n :: Count(r, n) == if IsSetExcluded(n) then 0 else Count(names, n)
  {
    var keep := (n: string) => KeepForSet(n);
    FilterSelects(names, keep);
    Filter(names, keep)
  }

  /** The key WHERE list: the primary-key columns in sample order (not in key
      order). */
  function WhereColumns(names: seq<string>, primaryKeys: seq<string>): (r: seq<string>)
    ensures forall n :: n in r <==> n in names && n in primaryKeys
    ensures IsSubsequence(r, names)
    ensures forall n :: Count(r, n) == if n in primaryKeys then Count(names, n) else 0
  {
    var keep := (n: string) => KeepForWhere(primaryKeys, n);
    FilterSelects(names, keep);
    Filter(names, keep)
  }

  /** Builds the statement column lists from the sample columns in reader
      order: the insert list holds every non-identity column, the SET list
      every column but `Key` and `EffectiveDateUtc`, the key WHERE (used only
      for a table without the three special columns) every primary-key column,
      each in sample order. */
  function BuildTemplate(names: seq<string>, identity: seq<string>, primaryKeys: seq<string>, versioned: bool): (r: WriteTemplate)
    ensures forall n :: n in r.insertColumns <==> n in names && n !in identity
    ensures IsSubsequence(r.insertColumns, names)
    ensures forall n :: n in r.setColumns <==> n in names && !IsSetExcluded(n)
    ensures IsSubsequence(r.setColumns, names)
    ensures r.where.VersionedWhere? <==> versioned
    ensures r.where.KeyWhere? ==> forall n :: n in r.where.keyColumns <==> n in names && n in primaryKeys
    ensures r.where.KeyWhere? ==> IsSubsequence(r.where.keyColumns, names)
  {
    WriteTemplate(
      InsertColumns(names, identity),
      SetColumns(names),
      if versioned then VersionedWhere else KeyWhere(WhereColumns(names, primaryKeys)))
  }

  /** The probe: fails when the table has no primary key (before anything else
      is read), or when the sample's schema repeats a column name; builds the
      templates only when the sample query returned a row. */
  function Probe(primaryKeys: seq<string>, identity: seq<string>, columns: seq<ColumnInfo>, sampleHasRow: bool): (r: Result<TableMetadata, SchemaError>)
    ensures |primaryKeys| == 0 <==> r == Err(NoPrimaryKey)
    ensures r.Ok? <==> |primaryKeys| > 0 && DistinctNames(columns)
    ensures r.Ok? ==> r.value.primaryKeys == primaryKeys && r.value.identity == identity
    ensures r.Ok? ==> r.value.columns == Names(columns)
    ensures r.Ok? ==> forall n :: n in r.value.types <==> n in r.value.columns
    ensures r.Ok? ==> forall i :: 0 <= i < |columns| ==> r.value.types[columns[i].name] == columns[i].dataType
    ensures r.Ok? ==> (r.value.template.Some? <==> sampleHasRow)
    ensures r.Ok? && r.value.template.Some? ==> (r.value.template.value.where.VersionedWhere? <==> IsVersioned(r.value.types))
    ensures r.Ok? && r.value.template.Some? ==>
      && r.value.template.value.insertColumns == InsertColumns(Names(columns), identity)
      && r.value.template.value.setColumns == SetColumns(Names(columns))
      && (r.value.template.value.where.KeyWhere? ==> r.value.template.value.where.keyColumns == WhereColumns(Names(columns), primaryKeys))
  {
    if |primaryKeys| == 0 then Err(NoPrimaryKey)
    else
      match ColumnTypes(columns)
      case Err(e) => Err(e)
      case Ok(types) =>
        var names := Names(columns);
        var template := if sampleHasRow then Some(BuildTemplate(names, identity, primaryKeys, IsVersioned(types))) else None;
        Ok(TableMetadata(primaryKeys, identity, names, types, template))
  }

  // ---------------------------------------------------------------------------
  // Statement text, assembled exactly as the source does: append `item,` per
  // column, then `TrimEnd(',')`.

  function Bracket(name: string): string { "[" + name + "]" }

  function Param(name: string): string { "@" + name }

  function Assign(name: string): string { Bracket(name) + "=" + Param(name) }

  const VersionedWhereText := " where [Key]=@Key and EffectiveDateUtc=@EffectiveDateUtc and [LastUpdateUtc]<@LastUpdateUtc"

  function InsertText(targetSchema: string, table: string, t: WriteTemplate): string
  {
    var columnsPart := TrimEnd("insert into [" + targetSchema + "].[" + table + "] (" + ConcatMap(t.insertColumns, (n: string) => Bracket(n) + ","), ',') + ") values (";
    TrimEnd(columnsPart + ConcatMap(t.insertColumns, (n: string) => Param(n) + ","), ',') + ")"
  }

  function WhereText(w: WhereClause): string
  {
    match w
    case VersionedWhere => VersionedWhereText
    case KeyWhere(keys) => " where 1=1" + ConcatMap(keys, (n: string) => " and " + Assign(n))
  }

  function UpdateText(targetSchema: string, table: string, t: WriteTemplate): string
  {
    TrimEnd("update [" + targetSchema + "].[" + table + "] set " + ConcatMap(t.setColumns, (n: string) => Assign(n) + ","), ',') + WhereText(t.where)
  }

  /** Appending `f(x) + ","` per item and trimming the trailing commas is the
      comma-joined list, provided the last item does not itself end in a comma. */
  lemma TrimmedList<T>(prefix: string, items: seq<T>, f: T -> string, g: T -> string)
    requires !EndsWith(prefix, ',')
    requires forall x :: g(x) == f(x) + ","
    requires |items| > 0 ==> |f(items[|items| - 1])| > 0 && !EndsWith(f(items[|items| - 1]), ',')
    ensures TrimEnd(prefix + ConcatMap(items, g), ',') == prefix + Join(Seq(items, f), ",")
  {
    if |items| == 0 {
      assert prefix + ConcatMap(items, g) == prefix;
    } else {
      ConcatMapIsJoin(items, f, g, ",");
      var joined := Join(Seq(items, f), ",");
      JoinLast(Seq(items, f), ",");
      assert prefix + ConcatMap(items, g) == (prefix + joined) + [','];
      TrimEndOne(prefix + joined, ',');
    }
  }

  /** The insert statement names the kept columns and, index-aligned with them,
      one `@name` placeholder each. */
  lemma InsertTextShape(targetSchema: string, table: string, t: WriteTemplate)
    requires |t.insertColumns| > 0 ==> !EndsWith(t.insertColumns[|t.insertColumns| - 1], ',')
    ensures InsertText(targetSchema, table, t) ==
      "insert into [" + targetSchema + "].[" + table + "] (" + Join(Seq(t.insertColumns, Bracket), ",")
      + ") values (" + Join(Seq(t.insertColumns, Param), ",") + ")"
    ensures |Seq(t.insertColumns, Bracket)| == |Seq(t.insertColumns, Param)|
    ensures forall i :: 0 <= i < |t.insertColumns| ==>
      Seq(t.insertColumns, Bracket)[i] == "[" + t.insertColumns[i] + "]" && Seq(t.insertColumns, Param)[i] == "@" + t.insertColumns[i]
  {
    var cols := t.insertColumns;
    var head := "insert into [" + targetSchema + "].[" + table + "] (";
    if |cols| > 0 {
      var last := cols[|cols| - 1];
      assert Bracket(last)[|Bracket(last)| - 1] == ']';
      assert Param(last) == "@" + last;
      assert !EndsWith(Param(last), ',') by {
        if |last| > 0 { assert Param(last)[|Param(last)| - 1] == last[|last| - 1]; }
      }
    }
    TrimmedList(head, cols, Bracket, (n: string) => Bracket(n) + ",");
    var columnsPart := head + Join(Seq(cols, Bracket), ",") + ") values (";
    TrimmedList(columnsPart, cols, Param, (n: string) => Param(n) + ",");
  }

  /** The update statement sets every column of the SET list from its own
      placeholder and ends in the WHERE clause. */
  lemma UpdateTextShape(targetSchema: string, table: string, t: WriteTemplate)
    requires |t.setColumns| > 0 ==> !EndsWith(t.setColumns[|t.setColumns| - 1], ',')
    ensures UpdateText(targetSchema, table, t) ==
      "update [" + targetSchema + "].[" + table + "] set " + Join(Seq(t.setColumns, Assign), ",") + WhereText(t.where)
    ensures forall i :: 0 <= i < |t.setColumns| ==>
      Seq(t.setColumns, Assign)[i] == "[" + t.setColumns[i] + "]=@" + t.setColumns[i]
  {
    var cols := t.setColumns;
    if |cols| > 0 {
      var last := cols[|cols| - 1];
      assert !EndsWith(Assign(last), ',') by {
        if |last| > 0 { assert Assign(last)[|Assign(last)| - 1] == last[|last| - 1]; }
      }
    }
    TrimmedList("update [" + targetSchema + "].[" + table + "] set ", cols, Assign, (n: string) => Assign(n) + ",");
  }
}

=== FILE: paging.dfy ===
/** Paging over an ordered source and the key windows of the diff merge.
    A page is what `offset (page*rowsPerPage) rows fetch next rowsPerPage rows
    only` returns from a static, already ordered and filtered result. */
module Paging {
  import opened Wrappers

  const RowsPerPage: nat := 1000

  /** Ordinal lexicographic order on key strings, standing in for the store's
      collation in `[Key]>=@MinKey and [Key]<=@MaxKey`. */
  predicate KeyLe(a: string, b: string)
    decreases |a|
  {
    |a| == 0 || (|b| > 0 && (a[0] < b[0] || (a[0] == b[0] && KeyLe(a[1..], b[1..]))))
  }

  predicate InWindow(key: string, lo: string, hi: string)
  {
    KeyLe(lo, key) && KeyLe(key, hi)
  }

  /** Some window of `windows` contains `key`. */
  predicate Covered(key: string, windows: seq<(string, string)>)
  {
    exists i :: 0 <= i < |windows| && InWindow(key, windows[i].0, windows[i].1)
  }

  predicate Sorted(keys: seq<string>)
  {
    forall i, j :: 0 <= i <= j < |keys| ==> KeyLe(keys[i], keys[j])
  }

  function Min(a: int, b: int): int { if a <= b then a else b }

  /** The rows of page `page` (zero-based) of `rows`. */
  function Page<T>(rows: seq<T>, page: nat, rowsPerPage: nat): (r: seq<T>)
    ensures |r| == 0 <==> |rows| <= page * rowsPerPage || rowsPerPage == 0
    ensures |r| <= rowsPerPage
    ensures forall i :: 0 <= i < |r| ==> page * rowsPerPage + i < |rows| && r[i] == rows[page * rowsPerPage + i]
  {
    var lo := Min(page * rowsPerPage, |rows|);
    var hi := Min(page * rowsPerPage + rowsPerPage, |rows|);
    rows[lo..hi]
  }

  lemma PageLength<T>(rows: seq<T>, page: nat, rowsPerPage: nat)
    requires page * rowsPerPage < |rows|
    ensures |Page(rows, page, rowsPerPage)| == Min(page * rowsPerPage + rowsPerPage, |rows|) - page * rowsPerPage
  {
  }

  /** The window of one key page: `minKey` is the first key read and `maxKey`
      the last; an empty page yields no window and ends the loop. */
  method WindowBounds(page: seq<string>) returns (r: Option<(string, string)>)
    ensures r.None? <==> |page| == 0
    ensures r.Some? ==> r.value == (page[0], page[|page| - 1])
  {
    var minKey: Option<string> := None;
    var maxKey: Option<string> := None;
    var i := 0;
    while i < |page|
      invariant 0 <= i <= |page|
      invariant minKey.None? <==> i == 0
      invariant maxKey.None? <==> i == 0
      invariant i > 0 ==> minKey.value == page[0] && maxKey.value == page[i - 1]
    {
      if minKey.None? {
        minKey := Some(page[i]);
      }
      maxKey := Some(page[i]);
      i := i + 1;
    }
    if minKey.None? {
      return None;
    }
    r := Some((minKey.value, maxKey.value));
  }

  function Bounds(page: seq<string>): (string, string)
    requires |page| > 0
  {
    (page[0], page[|page| - 1])
  }

  /** The windows read starting at page `page`, advancing the page counter by
      `step` per iteration, until a page comes back empty. */
  function WindowsFrom(keys: seq<string>, rowsPerPage: nat, page: nat, step: nat): seq<(string, string)>
    requires rowsPerPage > 0 && step > 0
    decreases |keys| - page * rowsPerPage
  {
    var p := Page(keys, page, rowsPerPage);
    if |p| == 0 then []
    else [Bounds(p)] + WindowsFrom(keys, rowsPerPage, page + step, step)
  }

  /** The windows the diff merge processes: one per key page, pages 0, 1, 2, ... */
  function Windows(keys: seq<string>, rowsPerPage: nat): seq<(string, string)>
    requires rowsPerPage > 0
  {
    WindowsFrom(keys, rowsPerPage, 0, 1)
  }

  /** The windows as the source's `SmartCopyAsync` reads them: it increments
      its page counter before the key query and again before the triple query,
      so the key pages read are 0, 2, 4, ... */
  function WindowsAsWritten(keys: seq<string>, rowsPerPage: nat): seq<(string, string)>
    requires rowsPerPage > 0
  {
    WindowsFrom(keys, rowsPerPage, 0, 2)
  }

  /** Window `i` comes from key page `page + step * i`, and windows exist for
      exactly the page indexes of that form that still hold keys. */
  lemma {:induction false} WindowsFromPages(keys: seq<string>, rowsPerPage: nat, page: nat, step: nat)
    requires rowsPerPage > 0 && step > 0
    ensures forall i: nat :: i < |WindowsFrom(keys, rowsPerPage, page, step)| <==> (page + step * i) * rowsPerPage < |keys|
    ensures forall i :: 0 <= i < |WindowsFrom(keys, rowsPerPage, page, step)| ==>
      WindowsFrom(keys, rowsPerPage, page, step)[i] == Bounds(Page(keys, page + step * i, rowsPerPage))
    decreases |keys| - page * rowsPerPage
  {
    var w := WindowsFrom(keys, rowsPerPage, page, step);
    if page * rowsPerPage < |keys| {
      WindowsFromPages(keys, rowsPerPage, page + step, step);
      var rest := WindowsFrom(keys, rowsPerPage, page + step, step);
      assert w == [Bounds(Page(keys, page, rowsPerPage))] + rest;
      forall i: nat
        ensures i < |w| <==> (page + step * i) * rowsPerPage < |keys|
        ensures i < |w| ==> w[i] == Bounds(Page(keys, page + step * i, rowsPerPage))
      {
        if i > 0 {
          StepShift(page, step, i);
        }
      }
    } else {
      forall i: nat ensures (page + step * i) * rowsPerPage >= |keys| {
        LaterPage(page, step, i, rowsPerPage);
      }
    }
  }

  lemma StepShift(page: nat, step: nat, i: nat)
    requires i > 0
    ensures page + step * i == (page + step) + step * (i - 1)
  {
  }

  lemma NextPageStart(page: nat, rowsPerPage: nat)
    ensures (page + 1) * rowsPerPage == page * rowsPerPage + rowsPerPage
  {
  }

  lemma LaterPage(page: nat, step: nat, i: nat, rowsPerPage: nat)
    ensures (page + step * i) * rowsPerPage >= page * rowsPerPage
  {
  }

  /** Window `i` of a loop that advances its page counter by `step` exists
      exactly when key page `step * i` is not empty, and is that page's
      bounds. */
  lemma WindowIndex(keys: seq<string>, rowsPerPage: nat, step: nat, i: nat)
    requires rowsPerPage > 0 && step > 0
    ensures i < |WindowsFrom(keys, rowsPerPage, 0, step)| <==> |Page(keys, step * i, rowsPerPage)| > 0
    ensures i < |WindowsFrom(keys, rowsPerPage, 0, step)| ==>
      WindowsFrom(keys, rowsPerPage, 0, step)[i] == Bounds(Page(keys, step * i, rowsPerPage))
  {
    WindowsFromPages(keys, rowsPerPage, 0, step);
    assert 0 + step * i == step * i;
  }

  /** A key of a sorted key list lies within the bounds of its own page. */
  lemma InOwnPage(keys: seq<string>, rowsPerPage: nat, page: nat, k: nat)
    requires rowsPerPage > 0 && Sorted(keys)
    requires page * rowsPerPage <= k < |keys| && k < page * rowsPerPage + rowsPerPage
    ensures |Page(keys, page, rowsPerPage)| > 0
    ensures InWindow(keys[k], Bounds(Page(keys, page, rowsPerPage)).0, Bounds(Page(keys, page, rowsPerPage)).1)
  {
    var p := Page(keys, page, rowsPerPage);
    var lo := page * rowsPerPage;
    var hi := Min(lo + rowsPerPage, |keys|);
    assert p == keys[lo..hi];
    assert p[0] == keys[lo] && p[|p| - 1] == keys[hi - 1];
    assert KeyLe(keys[lo], keys[k]) && KeyLe(keys[k], keys[hi - 1]);
  }

  /** Every key of a sorted key list lies in some window read from page
      `page` onwards, as long as its index is at or past that page. */
  lemma {:induction false} CoveredFrom(keys: seq<string>, rowsPerPage: nat, page: nat, k: nat) returns (i: nat)
    requires rowsPerPage > 0 && Sorted(keys)
    requires page * rowsPerPage <= k < |keys|
    ensures i < |WindowsFrom(keys, rowsPerPage, page, 1)|
    ensures InWindow(keys[k], WindowsFrom(keys, rowsPerPage, page, 1)[i].0, WindowsFrom(keys, rowsPerPage, page, 1)[i].1)
    decreases |keys| - page * rowsPerPage
  {
    var p := Page(keys, page, rowsPerPage);
    var rest := WindowsFrom(keys, rowsPerPage, page + 1, 1);
    assert WindowsFrom(keys, rowsPerPage, page, 1) == [Bounds(p)] + rest;
    if k < page * rowsPerPage + rowsPerPage {
      InOwnPage(keys, rowsPerPage, page, k);
      i := 0;
    } else {
      NextPageStart(page, rowsPerPage);
      var j := CoveredFrom(keys, rowsPerPage, page + 1, k);
      i := j + 1;
    }
  }

  /** With consecutive pages, every key of a sorted key list is inside some
      window, so every source row is diffed. */
  lemma WindowsCoverEveryKey(keys: seq<string>, rowsPerPage: nat)
    requires rowsPerPage > 0 && Sorted(keys)
    ensures forall k :: 0 <= k < |keys| ==> Covered(keys[k], Windows(keys, rowsPerPage))
  {
    forall k | 0 <= k < |keys|
      ensures Covered(keys[k], Windows(keys, rowsPerPage))
    {
      assert 0 * rowsPerPage == 0;
      var i := CoveredFrom(keys, rowsPerPage, 0, k);
    }
  }

  /** With the doubled page counter, a sorted table of keys `a`, `b`, `c` read
      one key per page is diffed in windows [a,a] and [c,c]: `b` is never
      compared, so it is neither copied nor deleted. */
  lemma AsWrittenSkipsKey()
    ensures WindowsAsWritten(["a", "b", "c"], 1) == [("a", "a"), ("c", "c")]
    ensures Sorted(["a", "b", "c"])
    ensures !Covered("b", WindowsAsWritten(["a", "b", "c"], 1))
  {
    var keys := ["a", "b", "c"];
    assert Page(keys, 0, 1) == ["a"];
    assert Page(keys, 2, 1) == ["c"];
    assert Page(keys, 4, 1) == [];
    assert WindowsFrom(keys, 1, 4, 2) == [];
    assert WindowsFrom(keys, 1, 2, 2) == [("c", "c")];
    assert !KeyLe("b", "a");
    assert !KeyLe("c", "b");
  }

  /** Keys in strictly increasing order: no two compare equal. */
  predicate StrictlySorted(keys: seq<string>)
  {
    forall i, j :: 0 <= i < j < |keys| ==> KeyLe(keys[i], keys[j]) && !KeyLe(keys[j], keys[i])
  }

  /** Window `i` of the as-written loop is the bounds of key page `2 * i`. */
  lemma AsWrittenWindowIndex(keys: seq<string>, rowsPerPage: nat, i: nat)
    requires rowsPerPage > 0 && i < |WindowsAsWritten(keys, rowsPerPage)|
    ensures 2 * i * rowsPerPage < |keys|
    ensures WindowsAsWritten(keys, rowsPerPage)[i] == Bounds(Page(keys, 2 * i, rowsPerPage))
  {
    WindowsFromPages(keys, rowsPerPage, 0, 2);
    assert 0 + 2 * i == 2 * i;
  }

  /** For any page size: when the keys are distinct and fill more than one
      page, the first key of page 1 is in none of the windows the doubled page
      counter produces. */
  lemma AsWrittenMissesSecondPage(keys: seq<string>, rowsPerPage: nat)
    requires rowsPerPage > 0 && StrictlySorted(keys) && |keys| > rowsPerPage
    ensures !Covered(keys[rowsPerPage], WindowsAsWritten(keys, rowsPerPage))
  {
    var w := WindowsAsWritten(keys, rowsPerPage);
    forall i | 0 <= i < |w|
      ensures !InWindow(keys[rowsPerPage], w[i].0, w[i].1)
    {
      AsWrittenWindowIndex(keys, rowsPerPage, i);
      WindowMisses(keys, rowsPerPage, i);
    }
  }

  /** Key page `2 * i` does not bracket the first key of page 1. */
  lemma WindowMisses(keys: seq<string>, rowsPerPage: nat, i: nat)
    requires rowsPerPage > 0 && StrictlySorted(keys) && |keys| > rowsPerPage
    requires 2 * i * rowsPerPage < |keys|
    ensures !InWindow(keys[rowsPerPage], Bounds(Page(keys, 2 * i, rowsPerPage)).0, Bounds(Page(keys, 2 * i, rowsPerPage)).1)
  {
    var n := rowsPerPage;
    var p := Page(keys, 2 * i, n);
    if i == 0 {
      assert p[|p| - 1] == keys[n - 1];
      assert !KeyLe(keys[n], keys[n - 1]);
    } else {
      var first := 2 * i * n;
      assert first >= 2 * n by {
        assert first == 2 * n + (2 * i - 2) * n;
      }
      assert p[0] == keys[first];
      assert !KeyLe(keys[first], keys[n]);
    }
  }
}

=== FILE: tablesync.dfy ===
/** The copy of one table (`CopyTableAsync`): probe the metadata, then run the
    diff merge when the table has the three versioning columns and the full
    scan otherwise, and the window loop of the diff merge (`SmartCopyAsync`).
    Store contents and the answers to every statement are inputs. */
module TableSync {
  import opened Wrappers
  import opened Lists
  import opened Metadata
  import opened Paging
  import opened Diff
  import opened Apply
  import opened FullScan

  /** The stores as one diff window sees them: every (filtered) source triple,
      every target triple, the clock reading the window's matches are judged
      against, how many rows the re-fetch of a composite key returns, and the
      outcome of each write. */
  datatype WindowStore = WindowStore(
    source: seq<Triple>,
    target: seq<Triple>,
    now: int,
    fetch: Composite -> nat,
    outcome: Write -> Outcome)

  /** An exception that ends the table's copy; the worker logs it and moves on.
      `ReadFailure` is the invalid cast a typed reader getter throws on a
      column whose declared type it cannot read. */
  datatype TableError =
    | SchemaFailure(schema: SchemaError)
    | ReadFailure(column: string)
    | DiffFailure(diff: DiffError)
    | ApplyFailure(apply: ApplyError)

  datatype TableOutcome =
    | TableFailed(error: TableError)
    | FullScanned(counters: Counters)
    | Merged(counters: Counters)

  /** Everything the copy of one table reads. */
  datatype TableInput = TableInput(
    primaryKeys: seq<string>,
    identity: seq<string>,
    columns: seq<ColumnInfo>,
    sampleHasRow: bool,
    /** Full scan: the ordered source rows and the target's answers. */
    rows: seq<Row>,
    results: seq<RowResult>,
    /** Diff merge: the ordered source keys and the stores per window. */
    keys: seq<string>,
    stores: seq<WindowStore>)

  /** The triples whose key lies in the window `[lo, hi]`. */
  function InRange(rows: seq<Triple>, w: (string, string)): (r: seq<Triple>)
    ensures forall t :: t in r <==> t in rows && InWindow(t.key, w.0, w.1)
  {
    Filter(rows, (t: Triple) => InWindow(t.key, w.0, w.1))
  }

  /** A triple occurs in the window as often as in the store when its key is
      in range, and not at all otherwise, so duplicate rows are counted once
      each. */
  lemma InRangeCounts(rows: seq<Triple>, w: (string, string))
    ensures IsSubsequence(InRange(rows, w), rows)
    ensures forall t :: Count(InRange(rows, w), t) == if InWindow(t.key, w.0, w.1) then Count(rows, t) else 0
  {
    FilterSelects(rows, (t: Triple) => InWindow(t.key, w.0, w.1));
  }

  /** Declared type names, as the sample's schema reports them, whose values
      `GetString` returns; on any other type it throws an invalid cast. */
  predicate StringTyped(dataType: string)
  {
    dataType in {"char", "nchar", "varchar", "nvarchar", "text", "ntext"}
  }

  /** Declared type names whose values `GetDateTime` returns. */
  predicate DateTimeTyped(dataType: string)
  {
    dataType in {"date", "datetime", "datetime2", "smalldatetime"}
  }

  /** The key reads (`GetString` on `Key`) go through. */
  predicate KeyReadable(types: map<string, string>)
  {
    KeyColumn in types && StringTyped(types[KeyColumn])
  }

  /** Both `GetDateTime` calls of the triple reads go through. */
  predicate TimestampsReadable(types: map<string, string>)
  {
    && EffectiveColumn in types && DateTimeTyped(types[EffectiveColumn])
    && LastUpdateColumn in types && DateTimeTyped(types[LastUpdateColumn])
  }

  /** The triple reads of a window go through: the timestamps read as dates,
      or neither side has a row in the window, so no getter is called. */
  predicate TriplesReadable(w: (string, string), st: WindowStore, types: map<string, string>)
  {
    TimestampsReadable(types) || (|InRange(st.source, w)| == 0 && |InRange(st.target, w)| == 0)
  }

  /** A window of the loop completes: its key page and its triples are read,
      and the merge of the triples succeeds. */
  predicate WindowCompletes(w: (string, string), st: WindowStore, types: map<string, string>)
  {
    KeyReadable(types) && TriplesReadable(w, st, types) && WindowSucceeds(w, st)
  }

  /** The merge of a window's triples succeeds: neither side repeats a
      composite key, and every delete it issues succeeds. */
  predicate WindowSucceeds(w: (string, string), st: WindowStore)
  {
    var src := InRange(st.source, w);
    var tgt := InRange(st.target, w);
    && DistinctComposites(src)
    && DistinctComposites(tgt)
    && forall k :: 0 <= k < |tgt| && ExpectedTarget(tgt[k], src).isDelete ==> st.outcome(Delete(tgt[k].key, tgt[k].effective)).Affected?
  }

  /** What one completed window adds to the counters: one row per source
      triple in the window; the affected counts of its deletes, inserts and
      updates; one error per failed insert or update. */
  function WindowDelta(w: (string, string), st: WindowStore): Counters
  {
    var c := ExpectedClassified(InRange(st.source, w), InRange(st.target, w), st.now);
    Counters(
      |InRange(st.source, w)|,
      UpsertAffected(c.sourceActions, st.fetch, st.outcome, InsertKind),
      UpsertAffected(c.sourceActions, st.fetch, st.outcome, UpdateKind),
      DeleteAffected(c.targetActions, st.outcome),
      UpsertFailures(c.sourceActions, st.fetch, st.outcome))
  }

  /** Each window's delta, in window order. */
  function Deltas(windows: seq<(string, string)>, stores: seq<WindowStore>): (r: seq<Counters>)
    requires |stores| == |windows|
    ensures |r| == |windows|
  {
    seq(|windows|, i requires 0 <= i < |windows| => WindowDelta(windows[i], stores[i]))
  }

  /** The counters after the given windows, one after the other. */
  function MergeTotals(windows: seq<(string, string)>, stores: seq<WindowStore>): Counters
    requires |stores| == |windows|
  {
    Sum(Deltas(windows, stores))
  }

  /** Extending the processed windows by one adds that window's delta. */
  lemma MergeTotalsStep(windows: seq<(string, string)>, stores: seq<WindowStore>, i: nat)
    requires |stores| == |windows| && i < |windows|
    ensures MergeTotals(windows[..i + 1], stores[..i + 1]) == Add(MergeTotals(windows[..i], stores[..i]), WindowDelta(windows[i], stores[i]))
  {
    var ds := Deltas(windows[..i + 1], stores[..i + 1]);
    SumLast(ds);
    assert ds[..i] == Deltas(windows[..i], stores[..i]);
  }

  /** Every delete of the reference classification succeeds exactly when
      every delete-tagged target row's delete does. */
  lemma DeletesSucceed(src: seq<Triple>, tgt: seq<Triple>, now: int, outcome: Write -> Outcome)
    ensures (forall a :: a in ExpectedClassified(src, tgt, now).targetActions && a.isDelete ==> outcome(Delete(a.key, a.effective)).Affected?)
        <==> (forall k :: 0 <= k < |tgt| && ExpectedTarget(tgt[k], src).isDelete ==> outcome(Delete(tgt[k].key, tgt[k].effective)).Affected?)
  {
    var actions := ExpectedClassified(src, tgt, now).targetActions;
    forall a | a in actions ensures exists k :: 0 <= k < |tgt| && a == ExpectedTarget(tgt[k], src) {
      var k :| 0 <= k < |actions| && actions[k] == a;
    }
    forall k | 0 <= k < |tgt| ensures ExpectedTarget(tgt[k], src) in actions {
      assert actions[k] == ExpectedTarget(tgt[k], src);
    }
  }

  /** Applying the reference classification of a window whose composite keys
      are distinct completes exactly when the window succeeds, and adds the
      window's delta to the counters. */
  lemma WindowApplies(w: (string, string), st: WindowStore, c: Counters)
    requires DistinctComposites(InRange(st.source, w)) && DistinctComposites(InRange(st.target, w))
    ensures var applied := ApplyWindow(ExpectedClassified(InRange(st.source, w), InRange(st.target, w), st.now), st.fetch, st.outcome, c);
      && (applied.Ok? <==> WindowSucceeds(w, st))
      && (applied.Ok? ==> applied.value == Add(c, WindowDelta(w, st)))
  {
    DeletesSucceed(InRange(st.source, w), InRange(st.target, w), st.now, st.outcome);
  }

  /** One window of the diff merge: read both sides' triples in the window,
      classify them, and apply the actions. The first row read on either side
      throws when a timestamp's declared type is not a date type. */
  method MergeWindow(w: (string, string), st: WindowStore, types: map<string, string>, c: Counters) returns (r: Result<Counters, TableError>)
    ensures r.Ok? <==> TriplesReadable(w, st, types) && WindowSucceeds(w, st)
    ensures r.Ok? ==> r.value == Add(c, WindowDelta(w, st))
    ensures r.Err? ==> !r.error.SchemaFailure?
    ensures !TriplesReadable(w, st, types) ==> r.Err? && r.error.ReadFailure?
  {
    var src := InRange(st.source, w);
    var tgt := InRange(st.target, w);
    if !TimestampsReadable(types) && (|src| > 0 || |tgt| > 0) {
      var column := if EffectiveColumn in types && DateTimeTyped(types[EffectiveColumn]) then LastUpdateColumn else EffectiveColumn;
      return Err(ReadFailure(column));
    }
    var classified := Classify(src, tgt, st.now);
    if classified.Err? {
      return Err(DiffFailure(classified.error));
    }
    var cl := classified.value;
    IsExpectedClassified(cl, src, tgt, st.now);
    WindowApplies(w, st, c);
    var applied := ApplyWindow(cl, st.fetch, st.outcome, c);
    if applied.Err? {
      return Err(ApplyFailure(applied.error));
    }
    r := Ok(applied.value);
  }

  /** The key query of iteration `i`: by then the page counter has advanced
      `i` times by `step`; the bounds of that key page are window `i` of the
      loop, and there is none once the pages run out. Reading the first key of
      a non-empty page throws when `Key` is not declared as a string type. */
  method ReadWindow(keys: seq<string>, rowsPerPage: nat, step: nat, i: nat, types: map<string, string>) returns (r: Result<Option<(string, string)>, TableError>)
    requires rowsPerPage > 0 && step > 0
    ensures r.Err? <==> i < |WindowsFrom(keys, rowsPerPage, 0, step)| && !KeyReadable(types)
    ensures r.Err? ==> r.error == ReadFailure(KeyColumn)
    ensures r.Ok? ==> (r.value.None? <==> |WindowsFrom(keys, rowsPerPage, 0, step)| <= i)
    ensures r.Ok? && r.value.Some? ==> r.value.value == WindowsFrom(keys, rowsPerPage, 0, step)[i]
  {
    var page := step * i;
    var bounds := WindowBounds(Page(keys, page, rowsPerPage));
    WindowIndex(keys, rowsPerPage, step, i);
    if bounds.Some? && !KeyReadable(types) {
      return Err(ReadFailure(KeyColumn));
    }
    r := Ok(bounds);
  }

  /** The diff merge: window after window until the key page is empty, the
      page counter advancing by `step` per window (1 reads consecutive key
      pages; 2 is the loop as written, which increments the counter twice).
      It fails with the first window whose key or triple read throws, that
      repeats a composite key or whose delete throws; on success the counters
      are the windows' totals. */
  method SmartCopy(keys: seq<string>, stores: seq<WindowStore>, types: map<string, string>, rowsPerPage: nat, step: nat) returns (r: Result<Counters, TableError>)
    requires rowsPerPage > 0 && step > 0
    requires |stores| == |WindowsFrom(keys, rowsPerPage, 0, step)|
    ensures r.Ok? <==> forall i :: 0 <= i < |stores| ==> WindowCompletes(WindowsFrom(keys, rowsPerPage, 0, step)[i], stores[i], types)
    ensures r.Ok? ==> r.value == MergeTotals(WindowsFrom(keys, rowsPerPage, 0, step), stores)
    ensures r.Err? ==> !r.error.SchemaFailure?
  {
    var windows := WindowsFrom(keys, rowsPerPage, 0, step);
    var c := Zero;
    var i: nat := 0;
    assert |windows[..0]| == 0;
    assert MergeTotals(windows[..0], stores[..0]) == Zero;
    while true
      invariant i <= |windows|
      invariant forall j :: 0 <= j < i ==> WindowCompletes(windows[j], stores[j], types)
      invariant c == MergeTotals(windows[..i], stores[..i])
      decreases |windows| - i
    {
      var read := ReadWindow(keys, rowsPerPage, step, i, types);
      if read.Err? {
        assert !WindowCompletes(windows[i], stores[i], types);
        return Err(read.error);
      }
      if read.value.None? {
        break;
      }
      var w := read.value.value;
      assert w == windows[i];
      var done := MergeWindow(w, stores[i], types, c);
      if done.Err? {
        assert !WindowCompletes(windows[i], stores[i], types);
        return done;
      }
      c := done.value;
      forall j | 0 <= j < i + 1
        ensures WindowCompletes(windows[j], stores[j], types)
      {
        if j == i {
          assert w == windows[j];
        }
      }
      MergeTotalsStep(windows, stores, i);
      i := i + 1;
    }
    assert i == |windows|;
    assert windows[..i] == windows && stores[..i] == stores;
    r := Ok(c);
  }

  /** The table copy: a table without a primary key fails before any template
      is built or any row is read; a versioned table (all three special columns
      present, names compared exactly) is merged over the key pages the loop
      as written reads (0, 2, 4, ...), reading `Key` and the timestamps with
      the typed getters the sample's declared types must suit; any other table
      is scanned. */
  method CopyTable(input: TableInput) returns (r: TableOutcome)
    requires |input.results| == |input.rows|
    requires |input.stores| == |WindowsAsWritten(input.keys, RowsPerPage)|
    ensures |input.primaryKeys| == 0 ==> r == TableFailed(SchemaFailure(NoPrimaryKey))
    ensures r.TableFailed? && r.error.SchemaFailure? <==> |input.primaryKeys| == 0 || !DistinctNames(input.columns)
    ensures (r.Merged? || (r.TableFailed? && !r.error.SchemaFailure?)) <==>
      && |input.primaryKeys| > 0 && DistinctNames(input.columns)
      && KeyColumn in Names(input.columns) && EffectiveColumn in Names(input.columns) && LastUpdateColumn in Names(input.columns)
    ensures r.FullScanned? ==> r.counters == Scan(input.rows, input.results).0
    ensures r.Merged? ==> r.counters == MergeTotals(WindowsAsWritten(input.keys, RowsPerPage), input.stores)
    ensures r.Merged? ==>
      && ColumnTypes(input.columns).Ok?
      && forall i :: 0 <= i < |input.stores| ==> WindowCompletes(WindowsAsWritten(input.keys, RowsPerPage)[i], input.stores[i], ColumnTypes(input.columns).value)
    ensures r.TableFailed? && !r.error.SchemaFailure? ==>
      && ColumnTypes(input.columns).Ok?
      && exists i :: 0 <= i < |input.stores| && !WindowCompletes(WindowsAsWritten(input.keys, RowsPerPage)[i], input.stores[i], ColumnTypes(input.columns).value)
  {
    var probed := Probe(input.primaryKeys, input.identity, input.columns, input.sampleHasRow);
    if probed.Err? {
      return TableFailed(SchemaFailure(probed.error));
    }
    var meta := probed.value;
    if IsVersioned(meta.types) {
      var merged := SmartCopy(input.keys, input.stores, meta.types, RowsPerPage, 2);
      if merged.Err? {
        return TableFailed(merged.error);
      }
      r := Merged(merged.value);
    } else {
      var c, _, _ := FullScanCopy(input.rows, input.results, RowsPerPage);
      r := FullScanned(c);
    }
  }
}

=== FILE: text.dfy ===
/** The string operations the engine uses when it assembles statement text
    and inspects error messages. Strings are sequences of characters
    (Unicode scalar values); no normalisation or encoding is modelled. */
module Text {
  import opened Lists

  /** Invariant-culture lower-casing restricted to ASCII letters. */
  function Lower(c: char): (r: char)
    ensures 'A' <= c <= 'Z' ==> r as int == c as int + 32
    ensures !('A' <= c <= 'Z') ==> r == c
  {
    if 'A' <= c <= 'Z' then (c as int + 32) as char else c
  }

  /** `String.Equals(a, b, InvariantCultureIgnoreCase)` over ASCII letters. */
  predicate EqualsIgnoreCase(a: string, b: string)
  {
    |a| == |b| && forall i :: 0 <= i < |a| ==> Lower(a[i]) == Lower(b[i])
  }

  /** Ordinal `String.Contains(pattern)`: `pattern` occurs somewhere in `s`. */
  predicate Contains(s: string, pattern: string)
  {
    exists i :: 0 <= i <= |s| - |pattern| && IsPrefix(pattern, s[i..])
  }

  predicate IsPrefix(p: string, s: string)
  {
    |p| <= |s| && s[..|p|] == p
  }

  predicate EndsWith(s: string, c: char)
  {
    |s| > 0 && s[|s| - 1] == c
  }

  /** `String.TrimEnd(c)`: remove every trailing occurrence of `c`. */
  function TrimEnd(s: string, c: char): (r: string)
    ensures |r| <= |s| && r == s[..|r|]
    ensures !EndsWith(r, c)
    ensures forall i :: |r| <= i < |s| ==> s[i] == c
  {
    if EndsWith(s, c) then TrimEnd(s[..|s| - 1], c) else s
  }

  /** `String.Join(separator, items)`. */
  function Join(items: seq<string>, separator: string): (r: string)
    ensures |items| == 1 ==> r == items[0]
    ensures |items| == 0 ==> r == ""
  {
    if |items| == 0 then ""
    else if |items| == 1 then items[0]
    else items[0] + separator + Join(items[1..], separator)
  }

  /** Concatenation of `f(x)` for every `x` in order; the source's `+=` loops. */
  function ConcatMap<T>(items: seq<T>, f: T -> string): (r: string)
    ensures |items| == 0 ==> r == ""
  {
    if |items| == 0 then "" else f(items[0]) + ConcatMap(items[1..], f)
  }

  /** Trimming a single trailing `c` from text that otherwise does not end in `c`. */
  lemma TrimEndOne(s: string, c: char)
    requires !EndsWith(s, c)
    ensures TrimEnd(s + [c], c) == s
  {
    assert (s + [c])[..|s + [c]| - 1] == s;
  }

  /** Appending `f(x) + sep` per item is the joined text followed by one `sep`. */
  lemma {:induction false} ConcatMapIsJoin<T>(items: seq<T>, f: T -> string, g: T -> string, separator: string)
    requires |items| > 0
    requires forall x :: g(x) == f(x) + separator
    ensures ConcatMap(items, g) == Join(Seq(items, f), separator) + separator
    decreases |items|
  {
    if |items| == 1 {
      assert ConcatMap(items[1..], g) == "";
    } else {
      ConcatMapIsJoin(items[1..], f, g, separator);
      assert Seq(items, f)[1..] == Seq(items[1..], f);
    }
  }

  /** The last character of a join of non-empty items is that of its last item. */
  lemma {:induction false} JoinLast(items: seq<string>, separator: string)
    requires |items| > 0 && |items[|items| - 1]| > 0
    ensures |Join(items, separator)| > 0
    ensures Join(items, separator)[|Join(items, separator)| - 1] == items[|items| - 1][|items[|items| - 1]| - 1]
    decreases |items|
  {
    if |items| > 1 {
      JoinLast(items[1..], separator);
    }
  }
}

=== FILE: wrappers.dfy ===
/** Option and Result values used in place of the nulls and exceptions of the
    synchronisation engine. */
module Wrappers {

  datatype Option<+T> = None | Some(value: T)

  /** Either a value or the error that would have been thrown. */
  datatype Result<+T, +E> = Ok(value: T) | Err(error: E)
}
